=== FILE: README.md ===
# ai-coding-mvp in Dafny

A model of the core of the ai-coding-mvp medical chart coding service:

- the chart parser of `transform_chart_to_json`. It cuts a plain-text chart dump into notes: header lines open a note, `Note ID:` lines name it, and content lines fill it. The chart id is then taken from the first note id (module `ChartParser`);
- the `MedicalNote` table. It has a unique `note_id`, an auto-incremented `id`, `to_dict` and `__str__`, and the two ORM calls the endpoints use: `get_or_create` and `filter(chart_id=...).order_by("id")` (module `Models`);
- the ICD-10 G-code catalogue loader:
  - CSV rows become documents, and rows with a blank long description are skipped;
  - a populated collection is reused;
  - the process-wide store is built at most once (module `VectorStore`);
- the `upload_chart` and `code_chart` endpoints (module `Views`);
- the Python `str` operations the code relies on: `isspace`, `strip`, `isupper`, `startswith`, `replace(marker, "")`, `" ".join` and `split("-")[-1]` (module `PyStr`);
- an `Option` type (module `Wrappers`).

The model is made of pure functions over immutable values:

- A table is a sequence of rows in `id` order, plus the next id.
- A collection is the sequence of documents added to it.
- A process is the cached store plus the collection on disk.
- An endpoint takes its state, returns the new state and the response, and maps each HTTP outcome to one constructor of a response datatype.

Four things the original gets from outside are parameters instead:

- the request body, given already decoded or marked undecodable;
- the database clock (`now`);
- whether the collection's `count()` raises;
- the vector search.

## Model

| member | source | states |
|---|---|---|
| PyStr.Strip | scripts/test_api_script.py:75-76 | a stripped line is empty exactly when the line is all whitespace, and otherwise starts and ends with non-whitespace |
| PyStr.StripKeepsMiddle | ai_coding_app/app/vector_store.py:43 | what `strip` keeps is one contiguous piece of the input, starting at the first non-whitespace character, and everything it drops is whitespace |
| PyStr.StripIdempotent | scripts/test_api_script.py:62 | stripping an already stripped text changes nothing |
| PyStr.UpperIsNotBlank | scripts/test_api_script.py:56 | an upper-case line is never blank, so the `line.strip()` half of the header test never rejects a line that `isupper` accepted |
| PyStr.RemoveAll | scripts/test_api_script.py:71 | `replace(marker, "")` never lengthens a line, and a line without the marker comes back unchanged |
| PyStr.RemoveAllShortens | scripts/test_api_script.py:71 | a line that holds the marker comes back shorter by at least the marker's length |
| PyStr.RemoveAllFirstOccurrence | scripts/test_api_script.py:71 | the scan deletes the leftmost marker, keeps the text before it unchanged and goes on with the text after it, so every occurrence found left to right is deleted |
| PyStr.RemoveLeadingMarker | scripts/test_api_script.py:71 | a line that is the marker followed by marker-free text loses exactly the marker |
| PyStr.JoinSpace | scripts/test_api_script.py:62 | `" ".join` of no pieces is empty and of one piece is that piece; otherwise the result starts with the first piece and ends with the last, and with two or more pieces a single space follows the first |
| PyStr.JoinSpaceAppend | scripts/test_api_script.py:62 | joining two non-empty runs of pieces is joining each and putting one space between, so every piece is kept in order with exactly one space between neighbours |
| PyStr.JoinOfStrippedIsStripped | scripts/test_api_script.py:62 | joining non-empty stripped lines with spaces leaves nothing for the trailing `.strip()` to cut |
| PyStr.LastSegment | scripts/test_api_script.py:87 | `split("-")[-1]` is a dash-free suffix of the id, and a dash precedes it whenever it is not the whole id |
| PyStr.LastSegmentAfterDash | scripts/test_api_script.py:86-87 | whatever comes before the last dash is ignored |
| ChartParser.IdLineIsNotHeader | scripts/test_api_script.py:56-70 | a line starting with `Note ID:` is never taken for a header, so the ID-line branch is always reached for it |
| ChartParser.IdOfPlainLine | scripts/test_api_script.py:71 | an ID line `Note ID:<x>`, where `x` has no further marker, carries `x` stripped |
| ChartParser.BlankLineIsNoOp | scripts/test_api_script.py:74-76 | a blank content line leaves every loop variable as it was |
| ChartParser.RunKeepsInv | scripts/test_api_script.py:54-76 | after any input: the emitted notes plus the one in progress number no more than the ID lines; every emitted note has a non-empty id read from an ID line and stripped content; the current id comes from an ID line; the buffer holds only non-empty stripped pieces of content lines |
| ChartParser.SegmentsAreWellFormed | scripts/test_api_script.py:49-84 | every emitted note, the last one included, has a non-empty id taken from some ID line and content with nothing left to strip, and there are never more notes than ID lines |
| ChartParser.RunOnlyAppends | scripts/test_api_script.py:57-64 | reading more lines never changes or removes a note already emitted |
| ChartParser.OutputFollowsInput | scripts/test_api_script.py:54-84 | the notes emitted while reading a prefix of the input are a prefix of the final output |
| ChartParser.BlankLinesAreIgnored | scripts/test_api_script.py:75 | deleting every blank line from the input changes neither the loop state nor the output |
| ChartParser.TransformChart | scripts/test_api_script.py:86-96 | every note carries the one chart id; the chart id is the last dash-separated part of the first note id, or `unknown` when there is no note; notes have non-empty ids from ID lines and stripped content |
| ChartParser.ChartIdExample | scripts/test_api_script.py:86-87 | `note-hpi-case12` gives the chart id `case12` |
| ChartParser.ContentLinesAppend | scripts/test_api_script.py:74-76 | while a note has an id, lines that are neither headers nor ID lines add their stripped text to the buffer in input order, skipping blank ones, and change nothing else |
| ChartParser.PreambleIsIgnored | scripts/test_api_script.py:49-76 | lines before the first header or ID line leave the loop state as it started |
| ChartParser.NoteWithBody | scripts/test_api_script.py:56-84 | a header, an ID line with a non-empty id and a body of any length, appended to any chart, add exactly one note at the end: the header is its type and the ID line gives its id. Its content is the buffer a dropped note left behind (empty when the note in progress had an id), followed by the body's non-blank lines, all stripped and joined with single spaces |
| ChartParser.Pieces | scripts/test_api_script.py:75-76 | the buffered pieces of a body are non-empty and have nothing left to strip |
| ChartParser.BlockNotes | scripts/test_api_script.py:59-63 | one expected note per block, in block order, each typed by its header, named by its ID line and holding its joined body |
| ChartParser.ChartOfBlocks | scripts/test_api_script.py:49-84 | a chart laid out as a preamble and well-formed blocks gives exactly the expected note of each block, in order |
| ChartParser.TransformChartOfBlocks | scripts/test_api_script.py:49-96 | for such a chart the result has one note per block, in order, each stamped with the chart id read off the first block's id, or `unknown` when there is no block |
| ChartParser.TwoNotes | scripts/test_api_script.py:54-84 | two headers, each followed by its ID line and one content line, give two notes in input order, each with its own type, id and content |
| ChartParser.FirstNote | scripts/test_api_script.py:79-84 | a chart made of one header, its ID line and one content line gives that single note, emitted by the final flush |
| ChartParser.NoteAfter | scripts/test_api_script.py:56-67 | a header, an ID line and a content line appended to any chart whose buffer is not left over from a dropped note add exactly one note, at the end |
| ChartParser.HeaderWithoutIdIsDropped | scripts/test_api_script.py:58-67 | a header followed by text but no ID line gives no note, and the chart id is `unknown` |
| ChartParser.ContentBeforeIdIsLost | scripts/test_api_script.py:74-76 | content lines read before the note's ID line are not kept |
| ChartParser.LaterIdOverwrites | scripts/test_api_script.py:70-71 | a second ID line in the same note replaces the first id |
| ChartParser.IdBeforeAnyHeader | scripts/test_api_script.py:50-84 | an ID line before any header gives a note whose type is `None` |
| ChartParser.EmptyIdThenHeader | scripts/test_api_script.py:58-67 | a bare `Note ID:` line empties the id, so the next header emits nothing and keeps the content buffer |
| ChartParser.DroppedNoteContentCarriesOver | scripts/test_api_script.py:58-64 | the buffer is cleared only when a note is emitted, so the content of a note dropped for an empty id opens the content of the next note |
| Models.ToDict | ai_coding_app/app/models.py:98-105 | `to_dict` has exactly the six column keys, each holding that column |
| Models.DictRoundTrip | ai_coding_app/app/models.py:98-105 | the row can be read back from its dictionary, so nothing is lost |
| Models.Display | ai_coding_app/app/models.py:89 | `__str__` is the chart id, ` - `, the note type and the note id in parentheses, with nothing else added |
| Models.DisplayShowsChartId | ai_coding_app/app/models.py:89 | for a chart id without a dash, the text of `__str__` up to its first dash is the chart id and a space |
| Models.UniqueIdsCount | ai_coding_app/app/models.py:62-66 | with `note_id` unique there are exactly as many stored ids as rows |
| Models.Lookup | ai_coding_app/app/views.py:86-87 | the lookup by `note_id` finds a row exactly when the id is stored, and the row it finds has that id |
| Models.GetOrCreate | ai_coding_app/app/views.py:86-93 | `get_or_create` creates exactly when the id is new: it appends one row with the next id, the defaults and the creation time; otherwise the table is unchanged; uniqueness and ascending ids are kept |
| Models.FilterByChart | ai_coding_app/app/views.py:147 | the filter returns exactly the rows of the chart, in ascending `id` order |
| Models.FilterByChartEmpty | ai_coding_app/app/views.py:147-148 | the filter is empty exactly when no stored row has that chart id |
| VectorStore.RowToDocument | ai_coding_app/app/vector_store.py:42-57 | a row is skipped exactly when its long description is missing or blank; a kept row's text is non-empty, and its order number and validity flag are carried over as read |
| VectorStore.DocumentFieldsAreTrimmed | ai_coding_app/app/vector_store.py:43-52 | the text, the code and the short description are the cells with surrounding whitespace cut off; the code and the short description have nothing left to strip at either end; a missing code cell gives an empty code |
| VectorStore.DocumentTextIsStripped | ai_coding_app/app/vector_store.py:49 | a document's text has nothing left to strip |
| VectorStore.RowsToDocumentsContents | ai_coding_app/app/vector_store.py:39-57 | one document per kept row; each document comes from some row, and every kept row gives its document |
| VectorStore.RowsToDocumentsAppend | ai_coding_app/app/vector_store.py:42-57 | reading two parts of the file in turn gives their documents in that order |
| VectorStore.Build | ai_coding_app/app/vector_store.py:29-61 | a collection whose count succeeds and is positive is reused as it is; otherwise the documents of the file, in row order, are appended to what it already holds; nothing is ever removed |
| VectorStore.BuildOnPopulatedIsNoOp | ai_coding_app/app/vector_store.py:29-32 | once a collection holds a document, a later build with a working count adds nothing, whatever the file says |
| VectorStore.FailingCountAddsTwice | ai_coding_app/app/vector_store.py:30-35 | when `count()` keeps raising, two builds store every document twice |
| VectorStore.GetVectorStore | ai_coding_app/app/vector_store.py:64-76 | the first call builds from the collection on disk and caches the result; a later call returns the cached store and changes nothing |
| VectorStore.BuiltAtMostOnce | ai_coding_app/app/vector_store.py:72-76 | however many calls there are, and whatever the file and count say later, every call returns the store the first call produced |
| Views.MissingKey | ai_coding_app/app/views.py:86-93 | a note is complete exactly when it has all four keys; otherwise the key reported is absent, and every key read before it is present, in the order `note_id`, `chart_id`, `note_type`, `content` |
| Views.FirstIncomplete | ai_coding_app/app/views.py:83-100 | the loop runs through every note before the first incomplete one, and that note lacks a key |
| Views.Ingest | ai_coding_app/app/views.py:79-100 | the loop keeps the table valid and only appends rows; it counts the rows added; it reports the key the first incomplete note lacks; it stores exactly the old ids plus those of the processed notes; and every new row holds one processed note's fields and the request time |
| Views.IngestRows | ai_coding_app/app/views.py:83-95 | the rows the loop adds are exactly those of the processed notes whose id is neither stored nor taken by an earlier note of the batch, in batch order, under consecutive keys from the table's next key |
| Views.RowsOf | ai_coding_app/app/views.py:86-93 | one row per note, in order: the k-th row stores the k-th note's fields and the request time under the key `next + k` |
| Views.UploadChart | ai_coding_app/app/views.py:70-107 | an undecodable body is rejected and changes nothing; a body without `notes` stores nothing; the table afterwards is what the loop leaves; the answer is a missing field exactly when some note lacks a key, and that field is the first key the first incomplete note lacks; `notes_inserted` is the number of rows added |
| Views.InsertedCountsNewIds | ai_coding_app/app/views.py:86-95 | `notes_inserted` is the number of distinct ids among the processed notes that were not stored before |
| Views.ReuploadInsertsNothing | ai_coding_app/app/views.py:83-95 | uploading a fully accepted batch again changes nothing and reports zero inserts |
| Views.DuplicateInBatchInsertsOnce | ai_coding_app/app/views.py:83-95 | a batch holding the same new id twice creates one row, from the first of the two notes |
| Views.MissingKeyKeepsEarlierRows | ai_coding_app/app/views.py:83-100 | a note that lacks a key gives the error answer, yet the row an earlier note created stays stored |
| Views.NormalizedSimilarity | ai_coding_app/app/views.py:173-177 | the similarity is missing exactly when the score does not convert or is -1; it satisfies similarity × (1 + score) = 1; it lies in (0, 1] for scores of 0 or more, and is 1 at score 0 |
| Views.SimilarityGivesBackScore | ai_coding_app/app/views.py:175 | the raw score can be recovered from the similarity |
| Views.SimilarityIsAntitone | ai_coding_app/app/views.py:175 | for non-negative scores a smaller distance never gives a smaller similarity |
| Views.NegativeScoreExceedsOne | ai_coding_app/app/views.py:175 | a score strictly between -1 and 0 gives a similarity above 1 |
| Views.CodeNote | ai_coding_app/app/views.py:154-187 | each result carries the note's id and type; it has no match exactly when the search on the note's content finds nothing; a match carries the hit's code, descriptions, raw score and similarity |
| Views.CodeNotes | ai_coding_app/app/views.py:153-154 | one result per note, in the notes' order |
| Views.CodeChart | ai_coding_app/app/views.py:135-188 | each error answer is given exactly when its condition holds: an undecodable body, a missing or empty `chart_id`, or a chart with no stored notes. The vector store is opened only for a chart that has notes; otherwise one result is given per stored note of the chart, in `id` order |
| Views.CodedCoversChart | ai_coding_app/app/views.py:147-188 | the results cover exactly the chart's stored notes: every stored note of the chart has its entry, every entry belongs to one, and they follow ascending row ids |

## Left out

- Reading the chart file and the `rstrip` of each line: `TransformChart` takes the right-stripped lines as given.
- The HTTP client half of the script, and the Django plumbing (routing, decorators, `csrf_exempt`, status codes as numbers): each response is one constructor of a response datatype.
- `list_charts`, `chart_schema` and `TestView`. `list_charts` only serialises every row with `to_dict`, which `Models.ToDict` covers. `chart_schema` lists the fields of the `MedicalNote` class, and `TestView` serialises the unrelated `TestModel`; neither touches the behaviour modelled here.
- A JSON body that decodes to something other than an object, and a `notes` value of `null` or a number. Each raises an error other than the ones the endpoints catch, so the server answers 500.
- A `notes` value that is an empty object or an empty string. The loop over it does nothing, so the answer is a success with `notes_inserted` 0. The model takes `notes` as a list only.
- A `notes` list with an element that is not an object, such as a string, a number or `null`, and a `notes` value that is a non-empty object or string, whose keys or characters the loop then walks as notes. Reading `note["note_id"]` then raises `TypeError`, which is not caught, so the server answers 500. The model takes every note as a map from key to string.
- Note values that are not strings. Django converts a non-`None` value with `str()` when it stores it, and a `None` value fails only when a row is created. Looking up an already stored id returns that row and raises nothing. The model takes notes as maps from key to string, so neither case is covered.
- Views.UploadChart: a request body that is not valid UTF-8 makes `json.loads` raise `UnicodeDecodeError`, which the endpoint does not catch (answer 500). `UnparsableUpload` and `UnparsableCode` stand only for bodies that raise `JSONDecodeError`; a body that is not UTF-8 is not modelled.
- Views.CodeChart: a `chart_id` that is truthy but not a string is accepted by the source and passed to the filter. `CodeBody` holds only strings, so this case is not modelled.
- VectorStore.BuiltAtMostOnce: the build is modelled as never failing. In the source, a build that raises (in the embeddings client, opening the CSV file or `add_documents`) leaves `_vectorstore` unset, so the next call builds again. The "at most once" promise holds only for builds that succeed.
- The error message text: `str(KeyError)` quotes the field name, and the model keeps only the name.
- The OpenAI embeddings and the Chroma collection: a collection is the list of documents added to it, the vector search is an uninterpreted function parameter, and persisting to disk is the `disk` component of the process.
- Floating point: scores and similarities are real numbers, so rounding is not modelled.
- Concurrency: each endpoint call is one atomic step. Concurrent uploads of the same id and concurrent first loads of the catalogue are not modelled.
- `created_at`: an opaque timestamp. One value `now` is used for every row of one request, and the ISO format that `to_dict` renders is not modelled.
- `max_length=100` on the character columns is not enforced.
- PyStr.IsUpper: cased characters are taken to be the ASCII letters, whereas CPython's `isupper` knows every Unicode cased letter.
- Views.UploadChart: a batch with an incomplete note is not rolled back. The error is returned, but rows created for earlier notes stay, because each `get_or_create` commits on its own (`Views.MissingKeyKeepsEarlierRows`).
- Views.NormalizedSimilarity: the guard against a failing division is modelled for a score of -1 only. Non-finite scores are not modelled.


=== FILE: chart_parser.dfy ===
/**
 The chart segmentation parser of `transform_chart_to_json`: one left-to-right
 pass over the (already right-stripped) lines of a chart dump. Each line is a
 header (an upper-case line), an ID line (starting with `Note ID:`) or content;
 a note is emitted when the next header arrives or the input ends, but only if
 it has a non-empty id. The chart id is then taken from the first note's id.
 */
module ChartParser {
  import opened Wrappers
  import opened PyStr

  const NoteIdMarker: string := "Note ID:"
  const UnknownChart: string := "unknown"

  /**
   A note as the pass emits it, before the chart id is stamped on it.
   `noteType` is None when the ID line came before any header.
   */
  datatype Segment = Segment(noteType: Option<string>, noteId: string, content: string)

  /** A note of the transformed chart. */
  datatype ChartNote = ChartNote(noteType: Option<string>, noteId: string, content: string, chartId: string)

  datatype Chart = Chart(chartId: string, notes: seq<ChartNote>)

  /**
   The loop's variables: the notes emitted so far, the current note type, the
   current note id and the buffer of content lines.
   */
  datatype Parser = Parser(notes: seq<Segment>, noteType: Option<string>, noteId: Option<string>, buffer: seq<string>)

  const Start: Parser := Parser([], None, None, [])

  /** Python truthiness of the current note id: present and non-empty. */
  predicate HasId(p: Parser) {
    p.noteId.Some? && p.noteId.value != []
  }

  predicate IsBlank(line: string) {
    Strip(line) == []
  }

  /** The header test `line.isupper() and line.strip()`. */
  predicate IsHeader(line: string) {
    IsUpper(line) && !IsBlank(line)
  }

  predicate IsIdLine(line: string) {
    NoteIdMarker <= line
  }

  /** A line that neither opens a note nor names one, and is not blank. */
  predicate IsContent(line: string) {
    !IsHeader(line) && !IsIdLine(line) && !IsBlank(line)
  }

  /** The id an ID line carries: every `Note ID:` removed, then stripped. */
  function IdOf(line: string): string {
    Strip(RemoveAll(line, NoteIdMarker))
  }

  /** The note in progress, as it would be emitted now. */
  function Current(p: Parser): Segment
    requires HasId(p)
  {
    Segment(p.noteType, p.noteId.value, Strip(JoinSpace(p.buffer)))
  }

  /** One iteration of the loop over the lines. */
  function Step(p: Parser, line: string): Parser {
    if IsHeader(line) then
      if HasId(p) then Parser(p.notes + [Current(p)], Some(line), None, [])
      else p.(noteType := Some(line), noteId := None)
    else if IsIdLine(line) then
      p.(noteId := Some(IdOf(line)))
    else if HasId(p) && !IsBlank(line) then
      p.(buffer := p.buffer + [Strip(line)])
    else
      p
  }

  /** The loop state after all of `lines`. */
  function Run(lines: seq<string>): Parser
    decreases |lines|
  {
    if lines == [] then Start else Step(Run(lines[..|lines| - 1]), lines[|lines| - 1])
  }

  /** The final flush after the loop. */
  function Finish(p: Parser): seq<Segment> {
    if HasId(p) then p.notes + [Current(p)] else p.notes
  }

  /** Every note the pass emits, in order. */
  function Segments(lines: seq<string>): seq<Segment> {
    Finish(Run(lines))
  }

  /** The chart id: the last `-`-separated part of the first note id, or `unknown`. */
  function ChartIdOf(segments: seq<Segment>): string {
    if segments == [] then UnknownChart else LastSegment(segments[0].noteId)
  }

  function Stamp(s: Segment, chartId: string): ChartNote {
    ChartNote(s.noteType, s.noteId, s.content, chartId)
  }

  function CountIdLines(lines: seq<string>): nat
    decreases |lines|
  {
    if lines == [] then 0
    else CountIdLines(lines[..|lines| - 1]) + (if IsIdLine(lines[|lines| - 1]) then 1 else 0)
  }

  /** `id` is what some ID line of `lines` carries. */
  predicate FromIdLine(lines: seq<string>, id: string) {
    exists j :: 0 <= j < |lines| && IsIdLine(lines[j]) && IdOf(lines[j]) == id
  }

  /** `piece` is the stripped text of some content line of `lines`. */
  predicate FromContentLine(lines: seq<string>, piece: string) {
    exists j :: 0 <= j < |lines| && IsContent(lines[j]) && Strip(lines[j]) == piece
  }

  predicate WellFormed(s: Segment, lines: seq<string>) {
    && s.noteId != []
    && FromIdLine(lines, s.noteId)
    && Strip(s.content) == s.content
  }

  /** What holds of the loop state after reading `lines`. */
  predicate Inv(p: Parser, lines: seq<string>) {
    && |p.notes| + (if HasId(p) then 1 else 0) <= CountIdLines(lines)
    && (forall k :: 0 <= k < |p.notes| ==> WellFormed(p.notes[k], lines))
    && (HasId(p) ==> FromIdLine(lines, p.noteId.value))
    && (forall k :: 0 <= k < |p.buffer| ==> p.buffer[k] != [] && Strip(p.buffer[k]) == p.buffer[k])
    && (forall k :: 0 <= k < |p.buffer| ==> FromContentLine(lines, p.buffer[k]))
  }

  /** An ID line always holds a lower-case letter, so it is never taken for a header. */
  lemma IdLineIsNotHeader(line: string)
    requires IsIdLine(line)
    ensures !IsHeader(line)
  {
    assert line[1] == NoteIdMarker[1] == 'o';
    LowerIsNotUpper(line, 1);
  }

  /** A line `Note ID:<x>` with no further marker in `x` carries `x` stripped. */
  lemma IdOfPlainLine(x: string)
    requires !Contains(x, NoteIdMarker)
    ensures IdOf(NoteIdMarker + x) == Strip(x)
  {
    RemoveLeadingMarker(NoteIdMarker, x);
  }

  /** Blank lines leave the whole loop state as it was. */
  lemma BlankLineIsNoOp(p: Parser, line: string)
    requires IsBlank(line)
    ensures Step(p, line) == p
  {
  }

  lemma FromIdLineGrows(lines: seq<string>, line: string, id: string)
    requires FromIdLine(lines, id)
    ensures FromIdLine(lines + [line], id)
  {
    var j :| 0 <= j < |lines| && IsIdLine(lines[j]) && IdOf(lines[j]) == id;
    assert (lines + [line])[j] == lines[j];
  }

  lemma FromContentLineGrows(lines: seq<string>, line: string, piece: string)
    requires FromContentLine(lines, piece)
    ensures FromContentLine(lines + [line], piece)
  {
    var j :| 0 <= j < |lines| && IsContent(lines[j]) && Strip(lines[j]) == piece;
    assert (lines + [line])[j] == lines[j];
  }

  /** The note in progress, once it has an id, would be emitted well formed. */
  lemma CurrentIsWellFormed(p: Parser, lines: seq<string>)
    requires Inv(p, lines) && HasId(p)
    ensures WellFormed(Current(p), lines)
  {
    JoinOfStrippedIsStripped(p.buffer);
    StripIdempotent(JoinSpace(p.buffer));
  }

  /** The invariant survives extending the input, as long as the state is unchanged. */
  lemma InvGrows(p: Parser, lines: seq<string>, line: string)
    requires Inv(p, lines)
    ensures forall k :: 0 <= k < |p.notes| ==> WellFormed(p.notes[k], lines + [line])
    ensures HasId(p) ==> FromIdLine(lines + [line], p.noteId.value)
    ensures forall k :: 0 <= k < |p.buffer| ==> FromContentLine(lines + [line], p.buffer[k])
    ensures CountIdLines(lines + [line]) == CountIdLines(lines) + (if IsIdLine(line) then 1 else 0)
  {
    var lines' := lines + [line];
    assert lines'[..|lines'| - 1] == lines;
    forall k | 0 <= k < |p.notes|
      ensures WellFormed(p.notes[k], lines')
    {
      FromIdLineGrows(lines, line, p.notes[k].noteId);
    }
    forall k | 0 <= k < |p.buffer|
      ensures FromContentLine(lines', p.buffer[k])
    {
      FromContentLineGrows(lines, line, p.buffer[k]);
    }
    if HasId(p) {
      FromIdLineGrows(lines, line, p.noteId.value);
    }
  }

  lemma AppendWellFormed(notes: seq<Segment>, c: Segment, lines: seq<string>)
    requires forall k :: 0 <= k < |notes| ==> WellFormed(notes[k], lines)
    requires WellFormed(c, lines)
    ensures forall k :: 0 <= k < |notes + [c]| ==> WellFormed((notes + [c])[k], lines)
  {
  }

  /** A header emits the note in progress if it has an id, then opens a note with no id. */
  lemma HeaderKeepsInv(p: Parser, lines: seq<string>, line: string)
    requires Inv(p, lines) && IsHeader(line)
    ensures Inv(Step(p, line), lines + [line])
  {
    InvGrows(p, lines, line);
    if HasId(p) {
      var c := Current(p);
      CurrentIsWellFormed(p, lines);
      FromIdLineGrows(lines, line, c.noteId);
      AppendWellFormed(p.notes, c, lines + [line]);
    }
  }

  lemma IdLineKeepsInv(p: Parser, lines: seq<string>, line: string)
    requires Inv(p, lines) && IsIdLine(line)
    ensures Inv(Step(p, line), lines + [line])
  {
    IdLineIsNotHeader(line);
    InvGrows(p, lines, line);
    assert (lines + [line])[|lines|] == line;
  }

  lemma ContentKeepsInv(p: Parser, lines: seq<string>, line: string)
    requires Inv(p, lines) && IsContent(line)
    ensures Inv(Step(p, line), lines + [line])
  {
    InvGrows(p, lines, line);
    if HasId(p) {
      var piece := Strip(line);
      ContentPiece(lines, line);
      assert Step(p, line) == p.(buffer := p.buffer + [piece]);
      BufferGrows(p, lines + [line], piece);
    }
  }

  /** The stripped text of a content line is a non-empty piece taken from that line. */
  lemma ContentPiece(lines: seq<string>, line: string)
    requires IsContent(line)
    ensures Strip(line) != [] && Strip(Strip(line)) == Strip(line)
    ensures FromContentLine(lines + [line], Strip(line))
  {
    StripIdempotent(line);
    assert (lines + [line])[|lines|] == line;
  }

  /** Adding a well-formed piece to the buffer keeps the buffer part of the invariant. */
  lemma BufferGrows(p: Parser, lines: seq<string>, piece: string)
    requires forall k :: 0 <= k < |p.buffer| ==> p.buffer[k] != [] && Strip(p.buffer[k]) == p.buffer[k]
    requires forall k :: 0 <= k < |p.buffer| ==> FromContentLine(lines, p.buffer[k])
    requires piece != [] && Strip(piece) == piece && FromContentLine(lines, piece)
    ensures var b := p.buffer + [piece];
      && (forall k :: 0 <= k < |b| ==> b[k] != [] && Strip(b[k]) == b[k])
      && (forall k :: 0 <= k < |b| ==> FromContentLine(lines, b[k]))
  {
  }

  /** One step keeps the invariant, for the input extended by the line read. */
  lemma StepKeepsInv(p: Parser, lines: seq<string>, line: string)
    requires Inv(p, lines)
    ensures Inv(Step(p, line), lines + [line])
  {
    if IsHeader(line) {
      HeaderKeepsInv(p, lines, line);
    } else if IsIdLine(line) {
      IdLineKeepsInv(p, lines, line);
    } else if IsBlank(line) {
      BlankLineIsNoOp(p, line);
      InvGrows(p, lines, line);
    } else {
      ContentKeepsInv(p, lines, line);
    }
  }

  /** The invariant holds of the loop state after any input. */
  lemma {:induction false} RunKeepsInv(lines: seq<string>)
    ensures Inv(Run(lines), lines)
  {
    if lines != [] {
      var init, last := lines[..|lines| - 1], lines[|lines| - 1];
      RunKeepsInv(init);
      StepKeepsInv(Run(init), init, last);
      assert init + [last] == lines;
    }
  }

  /**
   Every emitted note has a non-empty id read from some ID line, its content
   has nothing left to strip, and there are never more notes than ID lines.
   */
  lemma SegmentsAreWellFormed(lines: seq<string>)
    ensures |Segments(lines)| <= CountIdLines(lines)
    ensures forall k :: 0 <= k < |Segments(lines)| ==> WellFormed(Segments(lines)[k], lines)
  {
    RunKeepsInv(lines);
    var p := Run(lines);
    if HasId(p) {
      CurrentIsWellFormed(p, lines);
      AppendWellFormed(p.notes, Current(p), lines);
    }
  }

  /** Notes are only ever appended: reading more lines keeps every note already emitted, in order. */
  lemma {:induction false} RunOnlyAppends(a: seq<string>, b: seq<string>)
    ensures Run(a).notes <= Run(a + b).notes
    decreases |b|
  {
    if b != [] {
      var b' := b[..|b| - 1];
      assert (a + b)[..|a + b| - 1] == a + b';
      RunOnlyAppends(a, b');
    } else {
      assert a + b == a;
    }
  }

  /** Hence the notes emitted before the last header of a prefix are a prefix of the final output. */
  lemma OutputFollowsInput(a: seq<string>, b: seq<string>)
    ensures Run(a).notes <= Segments(a + b)
  {
    RunOnlyAppends(a, b);
  }

  function NonBlank(lines: seq<string>): (r: seq<string>)
    ensures forall k :: 0 <= k < |r| ==> !IsBlank(r[k])
    decreases |lines|
  {
    if lines == [] then []
    else if IsBlank(lines[|lines| - 1]) then NonBlank(lines[..|lines| - 1])
    else NonBlank(lines[..|lines| - 1]) + [lines[|lines| - 1]]
  }

  /** Blank lines anywhere in the input change nothing: the pass ignores them entirely. */
  lemma {:induction false} BlankLinesAreIgnored(lines: seq<string>)
    ensures Run(lines) == Run(NonBlank(lines))
    ensures Segments(lines) == Segments(NonBlank(lines))
    decreases |lines|
  {
    if lines != [] {
      var init, last := lines[..|lines| - 1], lines[|lines| - 1];
      BlankLinesAreIgnored(init);
      if IsBlank(last) {
        BlankLineIsNoOp(Run(init), last);
      } else {
        var nb := NonBlank(init) + [last];
        assert nb[..|nb| - 1] == NonBlank(init);
      }
    }
  }

  /**
   `transform_chart_to_json` after the file is read: every emitted note is
   stamped with one chart id, taken from the first note id (or `unknown`).
   */
  function TransformChart(lines: seq<string>): (c: Chart)
    ensures |c.notes| <= CountIdLines(lines)
    ensures forall k :: 0 <= k < |c.notes| ==> c.notes[k].chartId == c.chartId
    ensures forall k :: 0 <= k < |c.notes| ==> WellFormed(Unstamp(c.notes[k]), lines)
    ensures c.notes == [] ==> c.chartId == UnknownChart
    ensures c.notes != [] ==> c.chartId == LastSegment(c.notes[0].noteId)
    ensures '-' in c.chartId ==> c.chartId == UnknownChart
  {
    SegmentsAreWellFormed(lines);
    StampChart(Segments(lines), lines)
  }

  /** A chart note without its chart id. */
  function Unstamp(n: ChartNote): Segment {
    Segment(n.noteType, n.noteId, n.content)
  }

  /** The notes of `segments`, each stamped with the chart id read off the first one. */
  function StampChart(segments: seq<Segment>, lines: seq<string>): (c: Chart)
    requires forall k :: 0 <= k < |segments| ==> WellFormed(segments[k], lines)
    ensures |c.notes| == |segments|
    ensures forall k :: 0 <= k < |c.notes| ==> c.notes[k].chartId == c.chartId
    ensures forall k :: 0 <= k < |c.notes| ==> WellFormed(Unstamp(c.notes[k]), lines)
    ensures c.notes == [] ==> c.chartId == UnknownChart
    ensures c.notes != [] ==> c.chartId == LastSegment(c.notes[0].noteId)
  {
    var chartId := ChartIdOf(segments);
    var notes := StampAll(segments, chartId);
    StampAllKeepsWellFormed(segments, chartId, lines);
    Chart(chartId, notes)
  }

  lemma StampAllKeepsWellFormed(segments: seq<Segment>, chartId: string, lines: seq<string>)
    requires forall k :: 0 <= k < |segments| ==> WellFormed(segments[k], lines)
    ensures forall k :: 0 <= k < |segments| ==> WellFormed(Unstamp(StampAll(segments, chartId)[k]), lines)
  {
    var notes := StampAll(segments, chartId);
    forall k | 0 <= k < |segments|
      ensures WellFormed(Unstamp(notes[k]), lines)
    {
      assert Unstamp(notes[k]) == segments[k];
    }
  }

  /** Each note stamped with the chart id, in order. */
  function StampAll(segments: seq<Segment>, chartId: string): (ns: seq<ChartNote>)
    ensures |ns| == |segments|
    ensures forall k :: 0 <= k < |ns| ==> Unstamp(ns[k]) == segments[k] && ns[k].chartId == chartId
    decreases |segments|
  {
    if segments == [] then []
    else
      var init := segments[..|segments| - 1];
      assert forall k :: 0 <= k < |init| ==> init[k] == segments[k];
      StampAll(init, chartId) + [Stamp(segments[|segments| - 1], chartId)]
  }

  /** The chart id is the text after the last dash: `note-hpi-case12` gives `case12`. */
  lemma ChartIdExample()
    ensures ChartIdOf([Segment(None, "note-hpi-case12", "")]) == "case12"
  {
    LastSegmentAfterDash("note-hpi", "case12");
    assert "note-hpi" + "-" + "case12" == "note-hpi-case12";
  }

  lemma JoinTwo(x: string, y: string)
    ensures JoinSpace([x, y]) == x + " " + y
  {
    assert [x, y][..1] == [x];
  }

  lemma RunSnoc(lines: seq<string>, line: string)
    ensures Run(lines + [line]) == Step(Run(lines), line)
  {
    assert (lines + [line])[..|lines|] == lines;
  }

  lemma RunThree(a: string, b: string, c: string)
    ensures Run([a, b, c]) == Step(Step(Step(Start, a), b), c)
  {
    RunSnoc([], a);
    RunSnoc([a], b);
    RunSnoc([a, b], c);
    assert [] + [a] == [a];
    assert [a] + [b] == [a, b];
    assert [a, b] + [c] == [a, b, c];
  }

  lemma StepHeader(p: Parser, h: string)
    requires IsHeader(h)
    ensures HasId(p) ==> Step(p, h) == Parser(p.notes + [Current(p)], Some(h), None, [])
    ensures !HasId(p) ==> Step(p, h) == p.(noteType := Some(h), noteId := None)
  {
  }

  lemma StepIdLine(p: Parser, i: string)
    requires IsIdLine(i)
    ensures Step(p, i) == p.(noteId := Some(IdOf(i)))
  {
    IdLineIsNotHeader(i);
  }

  lemma StepContent(p: Parser, c: string)
    requires IsContent(c)
    ensures HasId(p) ==> Step(p, c) == p.(buffer := p.buffer + [Strip(c)])
    ensures !HasId(p) ==> Step(p, c) == p
  {
  }

  /** A header, an ID line and a content line, read in any state. */
  lemma HeaderIdContent(p: Parser, h: string, i: string, c: string)
    requires IsHeader(h) && IsIdLine(i) && IdOf(i) != [] && IsContent(c)
    requires HasId(p) || p.buffer == []
    ensures Step(Step(Step(p, h), i), c)
         == Parser(Finish(p), Some(h), Some(IdOf(i)), [Strip(c)])
  {
    StepHeader(p, h);
    var q := Parser(Finish(p), Some(h), None, []);
    assert Step(p, h) == q;
    StepIdLine(q, i);
    var q' := Parser(Finish(p), Some(h), Some(IdOf(i)), []);
    StepContent(q', c);
  }

  lemma RunAppendThree(lines: seq<string>, a: string, b: string, c: string)
    ensures Run(lines + [a, b, c]) == Step(Step(Step(Run(lines), a), b), c)
  {
    RunSnoc(lines, a);
    RunSnoc(lines + [a], b);
    RunSnoc(lines + [a, b], c);
    assert lines + [a] + [b] == lines + [a, b];
    assert lines + [a, b] + [c] == lines + [a, b, c];
  }

  lemma CurrentOfOneLine(p: Parser, c: string)
    requires HasId(p) && p.buffer == [Strip(c)]
    ensures Current(p) == Segment(p.noteType, p.noteId.value, Strip(c))
  {
    StripIdempotent(c);
  }

  lemma ThreePlusThree<T>(a: T, b: T, c: T, d: T, e: T, f: T)
    ensures [a, b, c] + [d, e, f] == [a, b, c, d, e, f]
  {
  }

  /** The opening header, ID line and content line of a chart. */
  lemma OpenFirstNote(h: string, i: string, c: string)
    requires IsHeader(h) && IsIdLine(i) && IdOf(i) != [] && IsContent(c)
    ensures Run([h, i, c]) == Parser([], Some(h), Some(IdOf(i)), [Strip(c)])
  {
    RunAppendThree([], h, i, c);
    HeaderIdContent(Start, h, i, c);
    assert [] + [h, i, c] == [h, i, c];
  }

  /** A further header, ID line and content line after a chart prefix. */
  lemma AppendNote(lines: seq<string>, h: string, i: string, c: string)
    requires HasId(Run(lines)) || Run(lines).buffer == []
    requires IsHeader(h) && IsIdLine(i) && IdOf(i) != [] && IsContent(c)
    ensures Run(lines + [h, i, c]) == Parser(Finish(Run(lines)), Some(h), Some(IdOf(i)), [Strip(c)])
  {
    RunAppendThree(lines, h, i, c);
    HeaderIdContent(Run(lines), h, i, c);
  }

  /**
   A header, its ID line and one content line appended to a chart whose
   buffer holds nothing of an id-less note add exactly one note, at the end.
   */
  lemma NoteAfter(lines: seq<string>, h: string, i: string, c: string)
    requires HasId(Run(lines)) || Run(lines).buffer == []
    requires IsHeader(h) && IsIdLine(i) && IdOf(i) != [] && IsContent(c)
    ensures HasId(Run(lines + [h, i, c]))
    ensures Segments(lines + [h, i, c]) == Segments(lines) + [Segment(Some(h), IdOf(i), Strip(c))]
  {
    AppendNote(lines, h, i, c);
    var p := Parser(Finish(Run(lines)), Some(h), Some(IdOf(i)), [Strip(c)]);
    CurrentOfOneLine(p, c);
  }

  /**
   Two headers, each followed by its ID line and one content line, give two
   notes in input order, each with its own type, id and content.
   */
  lemma TwoNotes(h1: string, i1: string, c1: string, h2: string, i2: string, c2: string)
    requires IsHeader(h1) && IsHeader(h2)
    requires IsIdLine(i1) && IsIdLine(i2) && IdOf(i1) != [] && IdOf(i2) != []
    requires IsContent(c1) && IsContent(c2)
    ensures Segments([h1, i1, c1, h2, i2, c2])
         == [Segment(Some(h1), IdOf(i1), Strip(c1)), Segment(Some(h2), IdOf(i2), Strip(c2))]
  {
    FirstNote(h1, i1, c1);
    NoteAfter([h1, i1, c1], h2, i2, c2);
    ThreePlusThree(h1, i1, c1, h2, i2, c2);
  }

  /** A chart that opens with a header, its ID line and one content line has that one note. */
  lemma FirstNote(h: string, i: string, c: string)
    requires IsHeader(h) && IsIdLine(i) && IdOf(i) != [] && IsContent(c)
    ensures HasId(Run([h, i, c]))
    ensures Segments([h, i, c]) == [Segment(Some(h), IdOf(i), Strip(c))]
  {
    assert Run([]) == Start;
    NoteAfter([], h, i, c);
    assert [] + [h, i, c] == [h, i, c];
  }

  /** A header followed by text but no ID line yields no note at all. */
  lemma HeaderWithoutIdIsDropped(h: string, t: string)
    requires IsHeader(h) && !IsIdLine(t)
    ensures TransformChart([h, t]) == Chart(UnknownChart, [])
  {
    RunSnoc([], h);
    RunSnoc([h], t);
    assert [] + [h] == [h];
    assert [h] + [t] == [h, t];
    assert !HasId(Run([h, t]));
  }

  /** Content read before the ID line is not kept: the note's content starts after its ID line. */
  lemma ContentBeforeIdIsLost(h: string, c: string, i: string)
    requires IsHeader(h) && IsContent(c) && IsIdLine(i) && IdOf(i) != []
    ensures Segments([h, c, i]) == [Segment(Some(h), IdOf(i), "")]
  {
    IdLineIsNotHeader(i);
    RunThree(h, c, i);
    assert Run([h, c, i]) == Parser([], Some(h), Some(IdOf(i)), []);
  }

  /** A later ID line in the same note replaces the earlier id. */
  lemma LaterIdOverwrites(h: string, i1: string, i2: string)
    requires IsHeader(h) && IsIdLine(i1) && IsIdLine(i2) && IdOf(i2) != []
    ensures Segments([h, i1, i2]) == [Segment(Some(h), IdOf(i2), "")]
  {
    IdLineIsNotHeader(i1);
    IdLineIsNotHeader(i2);
    RunThree(h, i1, i2);
    assert Run([h, i1, i2]) == Parser([], Some(h), Some(IdOf(i2)), []);
  }

  /** An ID line before any header gives a note with no type. */
  lemma IdBeforeAnyHeader(i: string, c: string)
    requires IsIdLine(i) && IdOf(i) != [] && IsContent(c)
    ensures Segments([i, c]) == [Segment(None, IdOf(i), Strip(c))]
  {
    IdLineIsNotHeader(i);
    StripIdempotent(c);
    RunSnoc([], i);
    RunSnoc([i], c);
    assert [] + [i] == [i];
    assert [i] + [c] == [i, c];
    assert Run([i, c]) == Parser([], None, Some(IdOf(i)), [Strip(c)]);
  }

  /** A bare `Note ID:` line empties the id; the next header then drops the note but keeps the buffer. */
  lemma EmptyIdThenHeader(p: Parser, e: string, h: string)
    requires IsIdLine(e) && IdOf(e) == [] && IsHeader(h)
    ensures Step(Step(p, e), h) == p.(noteType := Some(h), noteId := None)
  {
    StepIdLine(p, e);
    StepHeader(p.(noteId := Some(IdOf(e))), h);
  }

  /**
   The content buffer is cleared only when a note is emitted. A note whose id
   is emptied by a bare `Note ID:` line is dropped at the next header, but its
   content stays in the buffer and opens the content of the next note.
   */
  lemma DroppedNoteContentCarriesOver(h1: string, i1: string, c1: string, e: string,
                                      h2: string, i2: string, c2: string)
    requires IsHeader(h1) && IsHeader(h2)
    requires IsIdLine(i1) && IdOf(i1) != [] && IsIdLine(e) && IdOf(e) == []
    requires IsIdLine(i2) && IdOf(i2) != []
    requires IsContent(c1) && IsContent(c2)
    ensures Segments([h1, i1, c1, e, h2, i2, c2])
         == [Segment(Some(h2), IdOf(i2), Strip(c1) + " " + Strip(c2))]
  {
    DroppedNoteKeepsBuffer(h1, i1, c1, e, h2);
    var p5 := Parser([], Some(h2), None, [Strip(c1)]);
    RunSnoc([h1, i1, c1, e, h2], i2);
    RunSnoc([h1, i1, c1, e, h2, i2], c2);
    assert [h1, i1, c1, e, h2] + [i2] == [h1, i1, c1, e, h2, i2];
    assert [h1, i1, c1, e, h2, i2] + [c2] == [h1, i1, c1, e, h2, i2, c2];
    StepIdLine(p5, i2);
    var p6 := p5.(noteId := Some(IdOf(i2)));
    StepContent(p6, c2);
    var buffer := [Strip(c1), Strip(c2)];
    assert Run([h1, i1, c1, e, h2, i2, c2]) == p6.(buffer := buffer);
    ContentOfTwoLines(c1, c2);
  }

  /** Up to the second header: nothing emitted, the id cleared, the first note's content still buffered. */
  lemma DroppedNoteKeepsBuffer(h1: string, i1: string, c1: string, e: string, h2: string)
    requires IsHeader(h1) && IsHeader(h2)
    requires IsIdLine(i1) && IdOf(i1) != [] && IsIdLine(e) && IdOf(e) == []
    requires IsContent(c1)
    ensures Run([h1, i1, c1, e, h2]) == Parser([], Some(h2), None, [Strip(c1)])
  {
    OpenFirstNote(h1, i1, c1);
    var p3 := Parser([], Some(h1), Some(IdOf(i1)), [Strip(c1)]);
    RunSnoc([h1, i1, c1], e);
    RunSnoc([h1, i1, c1, e], h2);
    assert [h1, i1, c1] + [e] == [h1, i1, c1, e];
    assert [h1, i1, c1, e] + [h2] == [h1, i1, c1, e, h2];
    EmptyIdThenHeader(p3, e, h2);
  }

  lemma ContentOfTwoLines(c1: string, c2: string)
    requires !IsBlank(c1) && !IsBlank(c2)
    ensures Strip(JoinSpace([Strip(c1), Strip(c2)])) == Strip(c1) + " " + Strip(c2)
  {
    JoinedTrimmed(Strip(c1), Strip(c2));
  }

  lemma JoinedTrimmed(a: string, b: string)
    requires a != [] && b != [] && !IsSpace(a[0]) && !IsSpace(b[|b| - 1])
    ensures Strip(JoinSpace([a, b])) == a + " " + b
  {
    JoinTwo(a, b);
    var r := a + " " + b;
    assert r[0] == a[0];
    assert r[|r| - 1] == b[|b| - 1];
    StripOfTrimmed(r);
  }

  // ---------------------------------------------------------------------
  // Notes with bodies of any length
  // ---------------------------------------------------------------------

  /** The stripped text of the non-blank lines of `cs`, in order. */
  function Pieces(cs: seq<string>): (ps: seq<string>)
    ensures |ps| <= |cs|
    ensures forall k :: 0 <= k < |ps| ==> ps[k] != [] && Strip(ps[k]) == ps[k]
    decreases |cs|
  {
    if cs == [] then []
    else
      var last := cs[|cs| - 1];
      if IsBlank(last) then Pieces(cs[..|cs| - 1])
      else
        StripIdempotent(last);
        Pieces(cs[..|cs| - 1]) + [Strip(last)]
  }

  /** No line of `cs` is a header or an ID line. */
  predicate IsBody(cs: seq<string>) {
    forall k :: 0 <= k < |cs| ==> !IsHeader(cs[k]) && !IsIdLine(cs[k])
  }

  /**
   While the current note has an id, lines that are neither headers nor ID
   lines only add their stripped text to the buffer, in input order,
   skipping the blank ones.
   */
  lemma {:induction false} ContentLinesAppend(lines: seq<string>, cs: seq<string>)
    requires HasId(Run(lines)) && IsBody(cs)
    ensures Run(lines + cs) == Run(lines).(buffer := Run(lines).buffer + Pieces(cs))
    decreases |cs|
  {
    var p := Run(lines);
    if cs == [] {
      assert lines + cs == lines;
    } else {
      var init, last := cs[..|cs| - 1], cs[|cs| - 1];
      assert forall k :: 0 <= k < |init| ==> init[k] == cs[k];
      ContentLinesAppend(lines, init);
      RunSnoc(lines + init, last);
      AppendSnoc(lines, cs);
      BodyLineStep(p.(buffer := p.buffer + Pieces(init)), last);
      PiecesSnoc(cs);
    }
  }

  lemma AppendSnoc<T>(a: seq<T>, b: seq<T>)
    requires b != []
    ensures a + b == (a + b[..|b| - 1]) + [b[|b| - 1]]
  {
    assert b == b[..|b| - 1] + [b[|b| - 1]];
  }

  /** A line that is neither a header nor an ID line adds its stripped text, unless it is blank. */
  lemma BodyLineStep(p: Parser, line: string)
    requires HasId(p) && !IsHeader(line) && !IsIdLine(line)
    ensures Step(p, line) == p.(buffer := p.buffer + if IsBlank(line) then [] else [Strip(line)])
  {
    if IsBlank(line) {
      assert p.buffer + [] == p.buffer;
    }
  }

  lemma PiecesSnoc(cs: seq<string>)
    requires cs != []
    ensures var last := cs[|cs| - 1];
      Pieces(cs) == Pieces(cs[..|cs| - 1]) + if IsBlank(last) then [] else [Strip(last)]
  {
    if IsBlank(cs[|cs| - 1]) {
      assert Pieces(cs[..|cs| - 1]) + [] == Pieces(cs[..|cs| - 1]);
    }
  }

  /** Lines before the first header or ID line are read and forgotten. */
  lemma {:induction false} PreambleIsIgnored(pre: seq<string>)
    requires IsBody(pre)
    ensures Run(pre) == Start
    decreases |pre|
  {
    if pre != [] {
      var init := pre[..|pre| - 1];
      assert forall k :: 0 <= k < |init| ==> init[k] == pre[k];
      PreambleIsIgnored(init);
    }
  }

  /**
   What a header hands on to the next note: nothing when the note in progress
   has an id (it is emitted and the buffer cleared), otherwise the whole
   buffer, which only an emitted note clears.
   */
  function Leftover(p: Parser): seq<string> {
    if HasId(p) then [] else p.buffer
  }

  /**
   A header, an ID line with a non-empty id and a body of any length,
   appended to any chart, add exactly one note at the end: typed by the
   header, named by the ID line, and holding the buffer left over from a
   dropped note followed by the body's non-blank lines, stripped and joined
   with single spaces.
   */
  lemma NoteWithBody(lines: seq<string>, h: string, i: string, cs: seq<string>)
    requires IsHeader(h) && IsIdLine(i) && IdOf(i) != [] && IsBody(cs)
    ensures HasId(Run(lines + [h, i] + cs))
    ensures Segments(lines + [h, i] + cs)
         == Segments(lines) + [Segment(Some(h), IdOf(i), Strip(JoinSpace(Leftover(Run(lines)) + Pieces(cs))))]
  {
    var p := Run(lines);
    HeaderThenId(lines, h, i);
    var q := Parser(Finish(p), Some(h), Some(IdOf(i)), Leftover(p));
    ContentLinesAppend(lines + [h, i], cs);
    var r := q.(buffer := Leftover(p) + Pieces(cs));
    assert Run(lines + [h, i] + cs) == r;
    assert Current(r) == Segment(Some(h), IdOf(i), Strip(JoinSpace(Leftover(p) + Pieces(cs))));
  }

  /**
   A header and then an ID line emit the pending note, if any, and open a
   note with that type and id, holding what the header left over.
   */
  lemma HeaderThenId(lines: seq<string>, h: string, i: string)
    requires IsHeader(h) && IsIdLine(i)
    ensures Run(lines + [h, i]) == Parser(Finish(Run(lines)), Some(h), Some(IdOf(i)), Leftover(Run(lines)))
  {
    var p := Run(lines);
    RunSnoc(lines, h);
    RunSnoc(lines + [h], i);
    assert lines + [h] + [i] == lines + [h, i];
    StepHeader(p, h);
    var q := Parser(Finish(p), Some(h), None, Leftover(p));
    assert Step(p, h) == q;
    StepIdLine(q, i);
  }

  /** A note as it is laid out in a chart: its header, its ID line and the lines of its body. */
  datatype Block = Block(header: string, idLine: string, body: seq<string>)

  predicate WellFormedBlock(b: Block) {
    IsHeader(b.header) && IsIdLine(b.idLine) && IdOf(b.idLine) != [] && IsBody(b.body)
  }

  /** The lines of a chart: the preamble `pre`, then the lines of each block in turn. */
  function ChartLines(pre: seq<string>, bs: seq<Block>): seq<string>
    decreases |bs|
  {
    if bs == [] then pre
    else
      var b := bs[|bs| - 1];
      ChartLines(pre, bs[..|bs| - 1]) + [b.header, b.idLine] + b.body
  }

  /**
   The note a block stands for, as the source promises it: the header as its
   type, the id of its ID line, and its body's non-blank lines, stripped and
   joined with single spaces.
   */
  function BlockNote(b: Block): Segment {
    Segment(Some(b.header), IdOf(b.idLine), Strip(JoinSpace(Pieces(b.body))))
  }

  /** `f` applied to each element of `xs`, in order. */
  function MapSeq<A, B>(f: A -> B, xs: seq<A>): (ys: seq<B>)
    ensures |ys| == |xs|
    ensures forall k :: 0 <= k < |xs| ==> ys[k] == f(xs[k])
    decreases |xs|
  {
    if xs == [] then []
    else
      var init := xs[..|xs| - 1];
      assert forall k :: 0 <= k < |init| ==> init[k] == xs[k];
      MapSeq(f, init) + [f(xs[|xs| - 1])]
  }

  /** One note per block, in block order. */
  function BlockNotes(bs: seq<Block>): (ns: seq<Segment>)
    ensures |ns| == |bs|
    ensures forall k :: 0 <= k < |bs| ==> ns[k].noteType == Some(bs[k].header) && ns[k].noteId == IdOf(bs[k].idLine)
    ensures forall k :: 0 <= k < |bs| ==> ns[k].content == Strip(JoinSpace(Pieces(bs[k].body)))
  {
    MapSeq(BlockNote, bs)
  }

  /**
   A chart laid out as a preamble without headers or ID lines followed by
   well-formed blocks gives exactly one note per block, in order, each with
   its block's type, id and joined content.
   */
  lemma {:induction false} ChartOfBlocks(pre: seq<string>, bs: seq<Block>)
    requires IsBody(pre)
    requires forall k :: 0 <= k < |bs| ==> WellFormedBlock(bs[k])
    ensures bs == [] ==> Run(ChartLines(pre, bs)) == Start
    ensures bs != [] ==> HasId(Run(ChartLines(pre, bs)))
    ensures Segments(ChartLines(pre, bs)) == BlockNotes(bs)
    decreases |bs|
  {
    if bs == [] {
      PreambleIsIgnored(pre);
    } else {
      var init, b := bs[..|bs| - 1], bs[|bs| - 1];
      assert forall k :: 0 <= k < |init| ==> init[k] == bs[k];
      ChartOfBlocks(pre, init);
      var lines := ChartLines(pre, init);
      assert Leftover(Run(lines)) == [];
      NoteWithBody(lines, b.header, b.idLine, b.body);
      assert [] + Pieces(b.body) == Pieces(b.body);
      assert MapSeq(BlockNote, bs) == MapSeq(BlockNote, init) + [BlockNote(b)];
    }
  }

  /**
   The transformed chart of such a layout: one note per block, in order,
   each stamped with the chart id read off the first block's id.
   */
  lemma TransformChartOfBlocks(pre: seq<string>, bs: seq<Block>)
    requires IsBody(pre)
    requires forall k :: 0 <= k < |bs| ==> WellFormedBlock(bs[k])
    ensures var c := TransformChart(ChartLines(pre, bs));
      && c.chartId == (if bs == [] then UnknownChart else LastSegment(IdOf(bs[0].idLine)))
      && |c.notes| == |bs|
      && forall k :: 0 <= k < |bs| ==> c.notes[k] == Stamp(BlockNote(bs[k]), c.chartId)
  {
    ChartOfBlocks(pre, bs);
    var segments := Segments(ChartLines(pre, bs));
    assert bs != [] ==> segments[0] == BlockNote(bs[0]);
    var c := TransformChart(ChartLines(pre, bs));
    assert c.notes == StampAll(segments, ChartIdOf(segments));
    forall k | 0 <= k < |bs|
      ensures c.notes[k] == Stamp(BlockNote(bs[k]), c.chartId)
    {
      assert Unstamp(c.notes[k]) == BlockNote(bs[k]);
    }
  }
}

=== FILE: models.dfy ===
/**
 The `MedicalNote` table: one row per stored clinical note, with a unique
 `note_id`, an auto-incremented primary key `id` and a `created_at` stamp set
 when the row is created. The table is a sequence of rows in `id` order.
 */
module Models {
  import opened Wrappers

  /** `created_at`: an opaque moment supplied by the database clock. */
  type Timestamp = int

  datatype MedicalNote = MedicalNote(
    id: nat,
    chartId: string,
    noteId: string,
    noteType: string,
    content: string,
    createdAt: Timestamp)

  /** A JSON value in the dictionary `to_dict` returns. */
  datatype Value = Int(i: int) | Str(s: string) | Time(t: Timestamp)

  const DictKeys: set<string> := {"id", "chart_id", "note_id", "note_type", "content", "created_at"}

  /** `to_dict`: exactly the six column keys, each holding that column of the row. */
  function ToDict(n: MedicalNote): (d: map<string, Value>)
    ensures d.Keys == DictKeys
    ensures d["id"] == Int(n.id) && d["created_at"] == Time(n.createdAt)
    ensures d["chart_id"] == Str(n.chartId) && d["note_id"] == Str(n.noteId)
    ensures d["note_type"] == Str(n.noteType) && d["content"] == Str(n.content)
  {
    map[
      "id" := Int(n.id),
      "chart_id" := Str(n.chartId),
      "note_id" := Str(n.noteId),
      "note_type" := Str(n.noteType),
      "content" := Str(n.content),
      "created_at" := Time(n.createdAt)
    ]
  }

  /** Reads a row back from its dictionary, if it has the right shape. */
  function FromDict(d: map<string, Value>): Option<MedicalNote> {
    if && "id" in d && d["id"].Int? && d["id"].i >= 0
       && "chart_id" in d && d["chart_id"].Str?
       && "note_id" in d && d["note_id"].Str?
       && "note_type" in d && d["note_type"].Str?
       && "content" in d && d["content"].Str?
       && "created_at" in d && d["created_at"].Time?
    then
      Some(MedicalNote(d["id"].i, d["chart_id"].s, d["note_id"].s, d["note_type"].s,
                       d["content"].s, d["created_at"].t))
    else
      None
  }

  /** `to_dict` loses nothing: the row can be read back from it. */
  lemma DictRoundTrip(n: MedicalNote)
    ensures FromDict(ToDict(n)) == Some(n)
  {
  }

  /**
   `__str__`: the chart id, ` - `, the note type, and the note id in
   parentheses, with nothing else added.
   */
  function Display(n: MedicalNote): (r: string)
    ensures |r| == |n.chartId| + |n.noteType| + |n.noteId| + 6
    ensures n.chartId + " - " <= r
    ensures r[|n.chartId| + 3..|n.chartId| + 3 + |n.noteType|] == n.noteType
    ensures r[|r| - |n.noteId| - 3..] == " (" + n.noteId + ")"
  {
    var head := n.chartId + " - ";
    var r := head + n.noteType + " (" + n.noteId + ")";
    var tail := " (" + n.noteId + ")";
    assert r == (head + n.noteType) + tail;
    assert r[|head|..|head| + |n.noteType|] == n.noteType;
    assert r[|r| - |tail|..] == tail;
    r
  }

  /** The text before the first `-` of `s` (all of `s` if it has none). */
  function BeforeDash(s: string): (r: string)
    ensures r <= s
    ensures '-' !in r
    ensures |r| < |s| ==> s[|r|] == '-'
  {
    if s == [] || s[0] == '-' then [] else [s[0]] + BeforeDash(s[1..])
  }

  lemma {:induction false} BeforeDashOfConcat(a: string, b: string)
    requires '-' !in a && b != [] && b[0] == '-'
    ensures BeforeDash(a + b) == a
  {
    if a != [] {
      assert a[0] in a;
      assert (a + b)[1..] == a[1..] + b;
      assert forall c :: c in a[1..] ==> c in a;
      BeforeDashOfConcat(a[1..], b);
    } else {
      assert a + b == b;
    }
  }

  /** When the chart id has no dash, it can be read back off the displayed text. */
  lemma DisplayShowsChartId(n: MedicalNote)
    requires '-' !in n.chartId
    ensures BeforeDash(Display(n)) == n.chartId + " "
  {
    var rest := "- " + n.noteType + " (" + n.noteId + ")";
    assert Display(n) == (n.chartId + " ") + rest;
    assert '-' !in n.chartId + " ";
    BeforeDashOfConcat(n.chartId + " ", rest);
  }

  /** The table: its rows in `id` order, and the id the next insert receives. */
  datatype Table = Table(rows: seq<MedicalNote>, nextId: nat)

  const EmptyTable: Table := Table([], 1)

  predicate UniqueNoteIds(rows: seq<MedicalNote>) {
    forall i, j :: 0 <= i < j < |rows| ==> rows[i].noteId != rows[j].noteId
  }

  predicate IdsAscending(rows: seq<MedicalNote>) {
    forall i, j :: 0 <= i < j < |rows| ==> rows[i].id < rows[j].id
  }

  /** The `unique=True` constraint on `note_id`, and the auto-increment key. */
  predicate Valid(t: Table) {
    && UniqueNoteIds(t.rows)
    && IdsAscending(t.rows)
    && (forall i :: 0 <= i < |t.rows| ==> t.rows[i].id < t.nextId)
  }

  function NoteIds(rows: seq<MedicalNote>): set<string> {
    set i | 0 <= i < |rows| :: rows[i].noteId
  }

  /** With unique note ids there are exactly as many ids as rows. */
  lemma {:induction false} UniqueIdsCount(rows: seq<MedicalNote>)
    requires UniqueNoteIds(rows)
    ensures |NoteIds(rows)| == |rows|
    decreases |rows|
  {
    if rows != [] {
      var init := rows[..|rows| - 1];
      var last := rows[|rows| - 1];
      UniqueIdsCount(init);
      assert rows == init + [last];
      NoteIdsAppend(init, last);
      assert forall i :: 0 <= i < |init| ==> init[i] == rows[i];
    }
  }

  /** The row holding `noteId`, if any. */
  function Lookup(rows: seq<MedicalNote>, noteId: string): (r: Option<MedicalNote>)
    ensures r.Some? <==> noteId in NoteIds(rows)
    ensures r.Some? ==> r.value in rows && r.value.noteId == noteId
    decreases |rows|
  {
    if rows == [] then None
    else if rows[|rows| - 1].noteId == noteId then Some(rows[|rows| - 1])
    else
      var init := rows[..|rows| - 1];
      assert rows == init + [rows[|rows| - 1]];
      NoteIdsAppend(init, rows[|rows| - 1]);
      Lookup(init, noteId)
  }

  lemma NoteIdsAppend(rows: seq<MedicalNote>, n: MedicalNote)
    ensures NoteIds(rows + [n]) == NoteIds(rows) + {n.noteId}
  {
    var rows' := rows + [n];
    forall x | x in NoteIds(rows')
      ensures x in NoteIds(rows) + {n.noteId}
    {
      var i :| 0 <= i < |rows'| && rows'[i].noteId == x;
      if i < |rows| {
        assert rows'[i] == rows[i];
      }
    }
    forall x | x in NoteIds(rows)
      ensures x in NoteIds(rows')
    {
      var i :| 0 <= i < |rows| && rows[i].noteId == x;
      assert rows'[i] == rows[i];
    }
    assert rows'[|rows|] == n;
  }

  /**
   `get_or_create(note_id=..., defaults=...)`: when a row with `noteId` exists
   the table is untouched and nothing is created; otherwise one row with the
   next id and the stamp `now` is appended. Existing rows never change.
   */
  function GetOrCreate(t: Table, noteId: string, chartId: string, noteType: string,
                       content: string, now: Timestamp): (r: (Table, bool))
    requires Valid(t)
    ensures Valid(r.0)
    ensures r.1 <==> noteId !in NoteIds(t.rows)
    ensures !r.1 ==> r.0 == t
    ensures r.0.nextId == if r.1 then t.nextId + 1 else t.nextId
    ensures r.1 ==> r.0.rows == t.rows + [MedicalNote(t.nextId, chartId, noteId, noteType, content, now)]
    ensures NoteIds(r.0.rows) == NoteIds(t.rows) + {noteId}
    ensures Lookup(r.0.rows, noteId).Some?
  {
    if Lookup(t.rows, noteId).Some? then
      (t, false)
    else
      var n := MedicalNote(t.nextId, chartId, noteId, noteType, content, now);
      NoteIdsAppend(t.rows, n);
      (Table(t.rows + [n], t.nextId + 1), true)
  }

  /**
   `filter(chart_id=...).order_by("id")`: exactly the rows of that chart, in
   ascending `id` order.
   */
  function FilterByChart(rows: seq<MedicalNote>, chartId: string): (r: seq<MedicalNote>)
    requires IdsAscending(rows)
    ensures forall n :: n in r <==> n in rows && n.chartId == chartId
    ensures IdsAscending(r)
    ensures |r| <= |rows|
    decreases |rows|
  {
    if rows == [] then []
    else
      var init, last := rows[..|rows| - 1], rows[|rows| - 1];
      var r := FilterByChart(init, chartId);
      assert rows == init + [last];
      EarlierRowsHaveSmallerIds(rows, r);
      if last.chartId == chartId then r + [last] else r
  }

  /** Rows taken from before the last row of an ascending table have smaller ids than it. */
  lemma EarlierRowsHaveSmallerIds(rows: seq<MedicalNote>, r: seq<MedicalNote>)
    requires IdsAscending(rows) && rows != []
    requires forall n :: n in r ==> n in rows[..|rows| - 1]
    ensures forall n :: n in r ==> n.id < rows[|rows| - 1].id
  {
    forall n | n in r
      ensures n.id < rows[|rows| - 1].id
    {
      var i :| 0 <= i < |rows| - 1 && rows[..|rows| - 1][i] == n;
      assert rows[i] == n;
    }
  }

  /** The filter comes back empty exactly when no row of the table belongs to that chart. */
  lemma FilterByChartEmpty(rows: seq<MedicalNote>, chartId: string)
    requires IdsAscending(rows)
    ensures FilterByChart(rows, chartId) == [] <==> forall n :: n in rows ==> n.chartId != chartId
  {
    var r := FilterByChart(rows, chartId);
    if r != [] {
      assert r[0] in r;
    }
  }
}

=== FILE: pystr.dfy ===
/**
 The handful of Python `str` operations the chart code relies on: `isspace`,
 `strip`, `isupper`, `startswith`, `replace(marker, "")`, `" ".join(...)` and
 `split("-")[-1]`. They behave as in CPython, except that `isupper` knows
 only the ASCII letters as cased characters.
 */
module PyStr {

  /** `c.isspace()`: the ASCII separators and every Unicode space character. */
  const SpaceChars: set<char> := {
    ' ', '\t', '\n', '\U{0B}', '\U{0C}', '\r', '\U{1C}', '\U{1D}', '\U{1E}', '\U{1F}',
    '\U{85}', '\U{A0}', '\U{1680}', '\U{2000}', '\U{2001}', '\U{2002}', '\U{2003}', '\U{2004}',
    '\U{2005}', '\U{2006}', '\U{2007}', '\U{2008}', '\U{2009}', '\U{200A}', '\U{2028}',
    '\U{2029}', '\U{202F}', '\U{205F}', '\U{3000}'
  }

  predicate IsSpace(c: char) {
    c in SpaceChars
  }

  predicate AllSpace(s: string) {
    forall i :: 0 <= i < |s| ==> IsSpace(s[i])
  }

  /** How many whitespace characters open `s`. */
  function LeadingSpaces(s: string): (n: nat)
    ensures n <= |s|
  {
    if s != [] && IsSpace(s[0]) then 1 + LeadingSpaces(s[1..]) else 0
  }

  /** The characters `LeadingSpaces` counts are whitespace, and the one after them is not. */
  lemma {:induction false} LeadingSpacesAreSpaces(s: string)
    ensures forall i :: 0 <= i < LeadingSpaces(s) ==> IsSpace(s[i])
    ensures LeadingSpaces(s) < |s| ==> !IsSpace(s[LeadingSpaces(s)])
  {
    if s != [] && IsSpace(s[0]) {
      LeadingSpacesAreSpaces(s[1..]);
      forall i | 1 <= i < LeadingSpaces(s)
        ensures IsSpace(s[i])
      {
        assert s[i] == s[1..][i - 1];
      }
    }
  }

  /** How many whitespace characters close `s`. */
  function TrailingSpaces(s: string): (n: nat)
    ensures n <= |s|
  {
    if s != [] && IsSpace(s[|s| - 1]) then 1 + TrailingSpaces(s[..|s| - 1]) else 0
  }

  /** The characters `TrailingSpaces` counts are whitespace, and the one before them is not. */
  lemma {:induction false} TrailingSpacesAreSpaces(s: string)
    ensures forall i :: |s| - TrailingSpaces(s) <= i < |s| ==> IsSpace(s[i])
    ensures TrailingSpaces(s) < |s| ==> !IsSpace(s[|s| - 1 - TrailingSpaces(s)])
  {
    if s != [] && IsSpace(s[|s| - 1]) {
      var t := s[..|s| - 1];
      TrailingSpacesAreSpaces(t);
      forall i | |s| - TrailingSpaces(s) <= i < |s| - 1
        ensures IsSpace(s[i])
      {
        assert s[i] == t[i];
      }
    }
  }

  /**
   `s.strip()`: leading and trailing whitespace removed. The result is empty
   exactly when `s` is blank, and otherwise starts and ends with non-whitespace.
   */
  function Strip(s: string): (r: string)
    ensures |r| <= |s|
    ensures r == [] <==> AllSpace(s)
    ensures r != [] ==> !IsSpace(r[0]) && !IsSpace(r[|r| - 1])
  {
    LeadingSpacesAreSpaces(s);
    TrailingSpacesAreSpaces(s);
    var a := LeadingSpaces(s);
    if a == |s| then [] else s[a..|s| - TrailingSpaces(s)]
  }

  /** `r` is a contiguous piece of `s` starting at `a`, and every character of `s` outside it is whitespace. */
  predicate KeepsMiddle(s: string, a: nat, r: string) {
    && a + |r| <= |s|
    && r == s[a..a + |r|]
    && forall i :: 0 <= i < |s| && !(a <= i < a + |r|) ==> IsSpace(s[i])
  }

  /**
   What `strip` keeps is the contiguous middle of `s` that starts at the first
   non-whitespace character, and every character it drops is whitespace.
   */
  lemma StripKeepsMiddle(s: string)
    ensures KeepsMiddle(s, LeadingSpaces(s), Strip(s))
  {
    LeadingSpacesAreSpaces(s);
    TrailingSpacesAreSpaces(s);
  }

  /** A string that neither starts nor ends with whitespace is its own strip. */
  lemma StripOfTrimmed(s: string)
    requires s != [] && !IsSpace(s[0]) && !IsSpace(s[|s| - 1])
    ensures Strip(s) == s
  {
  }

  /** Stripping twice is stripping once. */
  lemma StripIdempotent(s: string)
    ensures Strip(Strip(s)) == Strip(s)
  {
    if Strip(s) != [] {
      StripOfTrimmed(Strip(s));
    }
  }

  predicate IsUpperChar(c: char) {
    'A' <= c <= 'Z'
  }

  predicate IsLowerChar(c: char) {
    'a' <= c <= 'z'
  }

  /**
   `s.isupper()`: at least one cased character and no lower-case one. Cased
   characters are taken to be the ASCII letters.
   */
  predicate IsUpper(s: string) {
    && (exists i :: 0 <= i < |s| && IsUpperChar(s[i]))
    && (forall i :: 0 <= i < |s| ==> !IsLowerChar(s[i]))
  }

  /** An upper-case string is never blank, so `line.strip()` adds nothing to the header test. */
  lemma UpperIsNotBlank(s: string)
    requires IsUpper(s)
    ensures Strip(s) != []
  {
    var i :| 0 <= i < |s| && IsUpperChar(s[i]);
    assert !IsSpace(s[i]);
  }

  /** A string holding a lower-case letter is not upper-case. */
  lemma LowerIsNotUpper(s: string, i: nat)
    requires i < |s| && IsLowerChar(s[i])
    ensures !IsUpper(s)
  {
  }

  /** `p` occurs in `s` starting at index `i`. */
  predicate OccursAt(s: string, p: string, i: nat) {
    i + |p| <= |s| && s[i..i + |p|] == p
  }

  /** `p in s` for strings. */
  predicate Contains(s: string, p: string) {
    exists i: nat :: i <= |s| && OccursAt(s, p, i)
  }

  lemma ContainsTail(s: string, p: string)
    requires s != [] && Contains(s[1..], p)
    ensures Contains(s, p)
  {
    var i: nat :| i <= |s[1..]| && OccursAt(s[1..], p, i);
    assert s[i + 1..i + 1 + |p|] == s[1..][i..i + |p|];
    assert OccursAt(s, p, i + 1);
  }

  /**
   `s.replace(p, "")`: every occurrence of `p` found scanning left to right
   (non-overlapping) is deleted, so the result is never longer, and a string
   without `p` is returned unchanged.
   */
  function RemoveAll(s: string, p: string): (r: string)
    requires p != []
    ensures |r| <= |s|
    ensures !Contains(s, p) ==> r == s
    decreases |s|
  {
    if |s| < |p| then s
    else if p <= s then
      var r := RemoveAll(s[|p|..], p);
      assert OccursAt(s, p, 0);
      r
    else
      var r := RemoveAll(s[1..], p);
      assert !Contains(s, p) ==> !Contains(s[1..], p) by {
        if Contains(s[1..], p) {
          ContainsTail(s, p);
        }
      }
      [s[0]] + r
  }

  /** A string that holds the marker loses at least one whole copy of it. */
  lemma {:induction false} RemoveAllShortens(s: string, p: string)
    requires p != [] && Contains(s, p)
    ensures |RemoveAll(s, p)| <= |s| - |p|
    decreases |s|
  {
    var i: nat :| i <= |s| && OccursAt(s, p, i);
    if !(p <= s) {
      assert i > 0;
      assert s[1..][i - 1..i - 1 + |p|] == s[i..i + |p|];
      assert OccursAt(s[1..], p, i - 1);
      RemoveAllShortens(s[1..], p);
    }
  }

  /**
   The scan deletes the leftmost occurrence of `p` and carries on after it:
   when `x` holds no start of `p`, the text before the marker is kept as it
   is, and the rest is what removing every occurrence from `y` gives.
   */
  lemma {:induction false} RemoveAllFirstOccurrence(x: string, p: string, y: string)
    requires p != []
    requires forall i :: 0 <= i < |x| ==> !OccursAt(x + p + y, p, i)
    ensures RemoveAll(x + p + y, p) == x + RemoveAll(y, p)
    decreases |x|
  {
    if x == [] {
      assert x + p + y == p + y;
      RemoveAllOfMarker(p, y);
    } else {
      var s, x' := x + p + y, x[1..];
      assert s[1..] == x' + p + y;
      assert s[0] == x[0];
      forall i | 0 <= i < |x'|
        ensures !OccursAt(x' + p + y, p, i)
      {
        ShiftOccurs(s, p, i);
      }
      RemoveAllFirstOccurrence(x', p, y);
      RemoveAllOfPlain(s, p);
      ConsAssoc(x, RemoveAll(y, p));
    }
  }

  /** A string that starts with the marker loses it and goes on with the rest. */
  lemma RemoveAllOfMarker(p: string, y: string)
    requires p != []
    ensures RemoveAll(p + y, p) == RemoveAll(y, p)
  {
    var s := p + y;
    assert s[..|p|] == p;
    assert s[|p|..] == y;
  }

  /** A string that does not start with the marker keeps its first character. */
  lemma RemoveAllOfPlain(s: string, p: string)
    requires p != [] && s != [] && !OccursAt(s, p, 0)
    ensures RemoveAll(s, p) == [s[0]] + RemoveAll(s[1..], p)
  {
    if |s| < |p| {
      assert s == [s[0]] + s[1..];
      assert !Contains(s[1..], p);
    } else {
      assert !(p <= s);
    }
  }

  lemma ConsAssoc<T>(x: seq<T>, z: seq<T>)
    requires x != []
    ensures [x[0]] + (x[1..] + z) == x + z
  {
  }

  /** An occurrence in the tail of `s` is an occurrence in `s`, one place later. */
  lemma ShiftOccurs(s: string, p: string, i: nat)
    requires s != []
    ensures OccursAt(s[1..], p, i) <==> OccursAt(s, p, i + 1)
  {
    if i + |p| <= |s[1..]| {
      assert s[1..][i..i + |p|] == s[i + 1..i + 1 + |p|];
    }
  }

  /** A string that is the marker followed by marker-free text loses exactly the marker. */
  lemma RemoveLeadingMarker(p: string, x: string)
    requires p != [] && !Contains(x, p)
    ensures RemoveAll(p + x, p) == x
  {
    assert p <= p + x;
    assert (p + x)[|p|..] == x;
  }

  /** `" ".join(xs)`: the pieces in order, separated by single spaces. */
  function JoinSpace(xs: seq<string>): (r: string)
    ensures xs == [] ==> r == []
    ensures |xs| == 1 ==> r == xs[0]
    ensures xs != [] ==> xs[0] <= r
    ensures xs != [] ==> |xs[|xs| - 1]| <= |r| && r[|r| - |xs[|xs| - 1]|..] == xs[|xs| - 1]
    ensures |xs| > 1 ==> |r| > |xs[0]| && r[|xs[0]|] == ' '
  {
    if |xs| == 0 then []
    else if |xs| == 1 then xs[0]
    else
      var init := JoinSpace(xs[..|xs| - 1]);
      var r := init + " " + xs[|xs| - 1];
      assert xs[..|xs| - 1][0] == xs[0];
      assert r[|r| - |xs[|xs| - 1]|..] == xs[|xs| - 1];
      assert |xs| > 2 ==> r[|xs[0]|] == init[|xs[0]|];
      r
  }

  /**
   Joining two non-empty runs of pieces is joining each and putting one space
   between them: every piece stays, in order, with exactly one space between
   neighbours.
   */
  lemma {:induction false} JoinSpaceAppend(a: seq<string>, b: seq<string>)
    requires a != [] && b != []
    ensures JoinSpace(a + b) == JoinSpace(a) + " " + JoinSpace(b)
    decreases |b|
  {
    var ab := a + b;
    var init, last := b[..|b| - 1], b[|b| - 1];
    assert ab[..|ab| - 1] == a + init;
    assert ab[|ab| - 1] == last;
    JoinSpaceSnoc(ab);
    if |b| == 1 {
      assert a + init == a;
    } else {
      JoinSpaceAppend(a, init);
      JoinSpaceSnoc(b);
      SpacedAssoc(JoinSpace(a), " ", JoinSpace(init), last);
    }
  }

  lemma JoinSpaceSnoc(xs: seq<string>)
    requires |xs| > 1
    ensures JoinSpace(xs) == JoinSpace(xs[..|xs| - 1]) + " " + xs[|xs| - 1]
  {
  }

  lemma SpacedAssoc<T>(x: seq<T>, sep: seq<T>, y: seq<T>, z: seq<T>)
    ensures x + sep + y + sep + z == x + sep + (y + sep + z)
  {
  }

  /** Joining non-empty stripped pieces leaves nothing for a trailing `.strip()` to remove. */
  lemma {:induction false} JoinOfStrippedIsStripped(xs: seq<string>)
    requires forall i :: 0 <= i < |xs| ==> xs[i] != [] && Strip(xs[i]) == xs[i]
    ensures Strip(JoinSpace(xs)) == JoinSpace(xs)
  {
    if xs != [] {
      var r := JoinSpace(xs);
      var first, last := xs[0], xs[|xs| - 1];
      assert first != [] && Strip(first) == first;
      assert last != [] && Strip(last) == last;
      assert r[0] == first[0];
      var tail := r[|r| - |last|..];
      assert tail == last;
      assert r[|r| - 1] == tail[|last| - 1];
      StripOfTrimmed(r);
    }
  }

  /**
   `s.split("-")[-1]`: the text after the last `-` of `s`, or all of `s` when
   it has none. It is a dash-free suffix of `s` preceded, if anything, by a dash.
   */
  function LastSegment(s: string): (r: string)
    ensures |r| <= |s| && r == s[|s| - |r|..]
    ensures '-' !in r
    ensures |r| < |s| ==> s[|s| - |r| - 1] == '-'
  {
    if s == [] || s[|s| - 1] == '-' then []
    else
      var r := LastSegment(s[..|s| - 1]);
      assert s[..|s| - 1][|s| - 1 - |r|..] + [s[|s| - 1]] == s[|s| - 1 - |r|..];
      r + [s[|s| - 1]]
  }

  /** Whatever precedes the last dash is ignored. */
  lemma {:induction false} LastSegmentAfterDash(a: string, b: string)
    requires '-' !in b
    ensures LastSegment(a + "-" + b) == b
  {
    var s := a + "-" + b;
    if b != [] {
      var b' := b[..|b| - 1];
      assert s[..|s| - 1] == a + "-" + b';
      assert b[|b| - 1] in b;
      LastSegmentAfterDash(a, b');
      assert b' + [b[|b| - 1]] == b;
    }
  }
}

=== FILE: vector_store.dfy ===
/**
 Loading the ICD-10 G-code catalogue into the vector collection
 (`ai_coding_app/app/vector_store.py`). Each CSV row becomes one document
 unless its long description is blank; a collection that already holds
 documents is reused; and one process builds the store at most once.

 The embedding model and the Chroma collection are abstract: a collection
 is the sequence of documents added to it, and whether its `count()` call
 raises is a parameter.
 */
module VectorStore {
  import opened Wrappers
  import opened PyStr

  /** A row as `csv.DictReader` yields it: column name to cell, `None` for a missing cell. */
  type CsvRow = map<string, Option<string>>

  /** `row.get(column)`. */
  function Cell(row: CsvRow, column: string): Option<string> {
    if column in row then row[column] else None
  }

  /** The text `(row.get(column) or "")` that gets stripped. */
  function CellText(row: CsvRow, column: string): string {
    Cell(row, column).GetOr("")
  }

  datatype Metadata = Metadata(
    icdCode: string,
    shortDescription: string,
    orderNumber: Option<string>,
    validForTransaction: Option<string>)

  datatype Document = Document(pageContent: string, metadata: Metadata)

  /**
   One row of the catalogue as a document, or nothing when its long
   description is missing or whitespace only. The two columns that are not
   cut are carried over untouched.
   */
  function RowToDocument(row: CsvRow): (r: Option<Document>)
    ensures r.None? <==> AllSpace(CellText(row, "long_description"))
    ensures r.Some? ==> r.value.pageContent != []
    ensures r.Some? ==> r.value.metadata.orderNumber == Cell(row, "order_number")
    ensures r.Some? ==> r.value.metadata.validForTransaction == Cell(row, "valid_for_transaction")
  {
    var longDesc := Strip(CellText(row, "long_description"));
    if longDesc == [] then
      None
    else
      Some(Document(
        longDesc,
        Metadata(
          Strip(CellText(row, "icd_code")),
          Strip(CellText(row, "short_description")),
          Cell(row, "order_number"),
          Cell(row, "valid_for_transaction"))))
  }

  /**
   The document's text is the long description with its surrounding
   whitespace cut off, and the code and the short description are cut the
   same way, a missing cell reading as the empty string. Both ends of the
   code and the short description are cut: nothing is left to strip.
   */
  lemma DocumentFieldsAreTrimmed(row: CsvRow)
    requires RowToDocument(row).Some?
    ensures var d, text := RowToDocument(row).value, CellText(row, "long_description");
      KeepsMiddle(text, LeadingSpaces(text), d.pageContent)
    ensures var d, code := RowToDocument(row).value, CellText(row, "icd_code");
      KeepsMiddle(code, LeadingSpaces(code), d.metadata.icdCode)
    ensures var d, short := RowToDocument(row).value, CellText(row, "short_description");
      KeepsMiddle(short, LeadingSpaces(short), d.metadata.shortDescription)
    ensures Cell(row, "icd_code").None? ==> RowToDocument(row).value.metadata.icdCode == []
    ensures var m := RowToDocument(row).value.metadata;
      Strip(m.icdCode) == m.icdCode && Strip(m.shortDescription) == m.shortDescription
  {
    StripKeepsMiddle(CellText(row, "long_description"));
    StripKeepsMiddle(CellText(row, "icd_code"));
    StripKeepsMiddle(CellText(row, "short_description"));
    StripIdempotent(CellText(row, "icd_code"));
    StripIdempotent(CellText(row, "short_description"));
  }

  /** A document's text, once cut, has nothing left to cut. */
  lemma DocumentTextIsStripped(row: CsvRow)
    requires RowToDocument(row).Some?
    ensures Strip(RowToDocument(row).value.pageContent) == RowToDocument(row).value.pageContent
  {
    StripIdempotent(CellText(row, "long_description"));
  }

  /** The values `f` gives for the elements of `xs`, in order, skipping those it gives none for. */
  function FilterMap<A, B>(f: A -> Option<B>, xs: seq<A>): (ys: seq<B>)
    ensures |ys| <= |xs|
    decreases |xs|
  {
    if xs == [] then []
    else
      var ys := FilterMap(f, xs[..|xs| - 1]);
      match f(xs[|xs| - 1])
      case None => ys
      case Some(y) => ys + [y]
  }

  /** How many elements of `xs` `f` gives a value for. */
  function CountSome<A, B>(f: A -> Option<B>, xs: seq<A>): (n: nat)
    ensures n <= |xs|
    decreases |xs|
  {
    if xs == [] then 0
    else CountSome(f, xs[..|xs| - 1]) + (if f(xs[|xs| - 1]).Some? then 1 else 0)
  }

  /** One output per element that has a value. */
  lemma {:induction false} FilterMapLength<A, B>(f: A -> Option<B>, xs: seq<A>)
    ensures |FilterMap(f, xs)| == CountSome(f, xs)
    decreases |xs|
  {
    if xs != [] {
      FilterMapLength(f, xs[..|xs| - 1]);
    }
  }

  /** Every output comes from some element, and every element with a value gives it. */
  lemma {:induction false} FilterMapMembers<A, B>(f: A -> Option<B>, xs: seq<A>)
    ensures forall y :: y in FilterMap(f, xs) ==> exists i :: 0 <= i < |xs| && f(xs[i]) == Some(y)
    ensures forall i :: 0 <= i < |xs| && f(xs[i]).Some? ==> f(xs[i]).value in FilterMap(f, xs)
    decreases |xs|
  {
    if xs != [] {
      var init := xs[..|xs| - 1];
      FilterMapMembers(f, init);
      var before := FilterMap(f, init);
      var last := f(xs[|xs| - 1]);
      assert FilterMap(f, xs) == before + (if last.Some? then [last.value] else []);
      forall y | y in FilterMap(f, xs)
        ensures exists i :: 0 <= i < |xs| && f(xs[i]) == Some(y)
      {
        if y in before {
          var i :| 0 <= i < |init| && f(init[i]) == Some(y);
          assert xs[i] == init[i];
        } else {
          assert f(xs[|xs| - 1]) == Some(y);
        }
      }
      forall i | 0 <= i < |xs| && f(xs[i]).Some?
        ensures f(xs[i]).value in FilterMap(f, xs)
      {
        if i < |init| {
          assert xs[i] == init[i];
        }
      }
    }
  }

  /** Mapping two parts one after the other gives their outputs in that order. */
  lemma {:induction false} FilterMapAppend<A, B>(f: A -> Option<B>, a: seq<A>, b: seq<A>)
    ensures FilterMap(f, a + b) == FilterMap(f, a) + FilterMap(f, b)
    decreases |b|
  {
    if b == [] {
      assert a + b == a;
    } else {
      var b' := b[..|b| - 1];
      assert (a + b)[..|a + b| - 1] == a + b';
      assert (a + b)[|a + b| - 1] == b[|b| - 1];
      FilterMapAppend(f, a, b');
    }
  }

  /** How many rows of the file yield a document. */
  function KeptRows(rows: seq<CsvRow>): nat {
    CountSome(RowToDocument, rows)
  }

  /** The documents of the whole file. */
  function RowsToDocuments(rows: seq<CsvRow>): seq<Document> {
    FilterMap(RowToDocument, rows)
  }

  /**
   The documents come in row order, one per kept row: each is the document of
   some row, and every row with a description gives its document.
   */
  lemma RowsToDocumentsContents(rows: seq<CsvRow>)
    ensures |RowsToDocuments(rows)| == KeptRows(rows)
    ensures forall d :: d in RowsToDocuments(rows) ==>
      exists i :: 0 <= i < |rows| && RowToDocument(rows[i]) == Some(d)
    ensures forall i :: 0 <= i < |rows| && RowToDocument(rows[i]).Some? ==>
      RowToDocument(rows[i]).value in RowsToDocuments(rows)
  {
    FilterMapLength(RowToDocument, rows);
    FilterMapMembers(RowToDocument, rows);
  }

  /** Reading two parts of the file one after the other gives their documents in that order. */
  lemma RowsToDocumentsAppend(a: seq<CsvRow>, b: seq<CsvRow>)
    ensures RowsToDocuments(a + b) == RowsToDocuments(a) + RowsToDocuments(b)
  {
    FilterMapAppend(RowToDocument, a, b);
  }

  /** A single row gives its document, or nothing when its description is blank. */
  lemma RowsToDocumentsOfOne(row: CsvRow)
    ensures RowsToDocuments([row]) == if RowToDocument(row).Some? then [RowToDocument(row).value] else []
  {
    assert [row][..0] == [];
  }

  /** A collection: the documents added to it so far, persisted across processes. */
  datatype Collection = Collection(documents: seq<Document>)

  /**
   `_build_vectorstore` on an existing collection: when `count()` succeeds and
   is positive the collection is returned as it is; when it is zero, or the
   call raises, every document of the file is added.
   */
  function Build(c: Collection, countRaises: bool, rows: seq<CsvRow>): (r: Collection)
    ensures !countRaises && c.documents != [] ==> r == c
    ensures c.documents <= r.documents
    ensures countRaises || c.documents == [] ==> r.documents == c.documents + RowsToDocuments(rows)
    ensures countRaises || c.documents == [] ==> |r.documents| == |c.documents| + KeptRows(rows)
  {
    FilterMapLength(RowToDocument, rows);
    if !countRaises && |c.documents| > 0 then c
    else Collection(c.documents + RowsToDocuments(rows))
  }

  /** A collection built from a file with at least one description is not rebuilt. */
  lemma BuildOnPopulatedIsNoOp(c: Collection, rows: seq<CsvRow>, rows': seq<CsvRow>)
    requires c.documents != [] || KeptRows(rows) > 0
    ensures Build(Build(c, false, rows), false, rows') == Build(c, false, rows)
  {
  }

  /**
   When `count()` keeps raising, every build adds the whole file again: a
   collection built twice from a non-empty file holds its documents twice.
   */
  lemma FailingCountAddsTwice(rows: seq<CsvRow>)
    ensures Build(Build(Collection([]), true, rows), true, rows).documents
            == RowsToDocuments(rows) + RowsToDocuments(rows)
  {
    var docs := RowsToDocuments(rows);
    assert [] + docs == docs;
    assert Build(Collection([]), true, rows) == Collection(docs);
  }

  /** The process: the cached store (`_vectorstore`) and the collection on disk. */
  datatype Process = Process(cached: Option<Collection>, disk: Collection)

  /**
   `get_vectorstore`: the first call builds the store from the collection on
   disk and caches it; every later call returns the cached store and touches
   nothing.
   */
  function GetVectorStore(p: Process, countRaises: bool, rows: seq<CsvRow>): (r: (Process, Collection))
    ensures r.0.cached == Some(r.1)
    ensures p.cached.Some? ==> r.0 == p && r.1 == p.cached.value
    ensures p.cached.None? ==> r.1 == Build(p.disk, countRaises, rows) && r.0.disk == r.1
  {
    match p.cached
    case Some(c) => (p, c)
    case None =>
      var c := Build(p.disk, countRaises, rows);
      (Process(Some(c), c), c)
  }

  /** The result of one `get_vectorstore` call per entry of `calls`, in order. */
  function CallMany(p: Process, calls: seq<(bool, seq<CsvRow>)>): (r: (Process, seq<Collection>))
    ensures |r.1| == |calls|
    decreases |calls|
  {
    if calls == [] then (p, [])
    else
      var (p', c) := GetVectorStore(p, calls[0].0, calls[0].1);
      var (p'', cs) := CallMany(p', calls[1..]);
      (p'', [c] + cs)
  }

  /**
   However many times `get_vectorstore` is called, and whatever the file and
   the collection say on later calls, it returns the one store the first
   call produced, and only the first call can change the process.
   */
  lemma {:induction false} BuiltAtMostOnce(p: Process, calls: seq<(bool, seq<CsvRow>)>)
    requires calls != []
    ensures var (q, cs) := CallMany(p, calls);
      && (forall i :: 0 <= i < |cs| ==> cs[i] == cs[0])
      && q == GetVectorStore(p, calls[0].0, calls[0].1).0
    decreases |calls|
  {
    var (p', c) := GetVectorStore(p, calls[0].0, calls[0].1);
    if |calls| > 1 {
      CachedCallsChangeNothing(p', calls[1..]);
    }
  }

  lemma {:induction false} CachedCallsChangeNothing(p: Process, calls: seq<(bool, seq<CsvRow>)>)
    requires p.cached.Some?
    ensures var (q, cs) := CallMany(p, calls);
      && q == p
      && (forall i :: 0 <= i < |cs| ==> cs[i] == p.cached.value)
    decreases |calls|
  {
    if calls != [] {
      CachedCallsChangeNothing(p, calls[1..]);
    }
  }
}

=== FILE: views.dfy ===
/**
 The two chart endpoints of `ai_coding_app/app/views.py`: `upload_chart`,
 which stores the notes of a chart, and `code_chart`, which gives each
 stored note of a chart its closest ICD-10 code.

 A request body is given already decoded (or as undecodable), the note table
 is a `Models.Table`, the vector search is a function parameter, and the
 moment of the request is a parameter.
 */
module Views {
  import opened Wrappers
  import opened Models
  import opened VectorStore

  // ---------------------------------------------------------------------
  // upload_chart
  // ---------------------------------------------------------------------

  /** One note object of an upload body: key to string value. */
  type NotePayload = map<string, string>

  datatype UploadRequest =
      /** A body that `json.loads` rejects with `JSONDecodeError`. */
    | UnparsableUpload
      /** A JSON object; `notes` is `None` when the key is absent. */
    | UploadBody(notes: Option<seq<NotePayload>>)

  datatype UploadResponse =
      /** 400, "Invalid JSON payload". */
    | InvalidPayload
      /** 400, "Missing required field: 'field'". */
    | MissingField(field: string)
      /** 200, "Chart uploaded successfully" with `notes_inserted`. */
    | Uploaded(notesInserted: nat)

  /**
   The first required key `note` lacks, in the order the code reads them:
   `note_id` (the lookup key) before the three defaults `chart_id`,
   `note_type` and `content`.
   */
  function MissingKey(note: NotePayload): (r: Option<string>)
    ensures r.None? <==> "note_id" in note && "chart_id" in note && "note_type" in note && "content" in note
    ensures r.Some? ==> r.value !in note
    ensures r == Some("chart_id") ==> "note_id" in note
    ensures r == Some("note_type") ==> "note_id" in note && "chart_id" in note
    ensures r == Some("content") ==> "note_id" in note && "chart_id" in note && "note_type" in note
    ensures r.Some? ==> r.value in {"note_id", "chart_id", "note_type", "content"}
  {
    if "note_id" !in note then Some("note_id")
    else if "chart_id" !in note then Some("chart_id")
    else if "note_type" !in note then Some("note_type")
    else if "content" !in note then Some("content")
    else None
  }

  /** The position of the first note that lacks a required key, or `|notes|` when none does. */
  function FirstIncomplete(notes: seq<NotePayload>): (n: nat)
    ensures n <= |notes|
    ensures forall i :: 0 <= i < n ==> MissingKey(notes[i]).None?
    ensures n < |notes| ==> MissingKey(notes[n]).Some?
  {
    if notes == [] then 0
    else if MissingKey(notes[0]).Some? then 0
    else 1 + FirstIncomplete(notes[1..])
  }

  /** The notes the loop gets through: all of them before the first incomplete one. */
  function Processed(notes: seq<NotePayload>): seq<NotePayload> {
    notes[..FirstIncomplete(notes)]
  }

  /** The `note_id`s of the notes that have one. */
  function IdsOf(notes: seq<NotePayload>): set<string> {
    set i | 0 <= i < |notes| && "note_id" in notes[i] :: notes[i]["note_id"]
  }

  /** `row` is the row created for `note` at the moment `now`. */
  predicate Stores(row: MedicalNote, note: NotePayload, now: Timestamp) {
    && MissingKey(note).None?
    && row.noteId == note["note_id"]
    && row.chartId == note["chart_id"]
    && row.noteType == note["note_type"]
    && row.content == note["content"]
    && row.createdAt == now
  }

  datatype IngestOutcome = IngestOutcome(table: Table, inserted: nat, missing: Option<string>)

  /**
   The loop over `notes`: each complete note is inserted unless its `note_id`
   is already stored, counting the inserts; the first incomplete note stops
   the loop with the key it lacks, and the inserts before it stay.
   */
  function Ingest(t: Table, notes: seq<NotePayload>, now: Timestamp): (r: IngestOutcome)
    requires Valid(t)
    ensures IngestPost(t, notes, now, r)
    decreases |notes|
  {
    if notes == [] then
      IngestOutcome(t, 0, None)
    else
      var r := Ingest(t, notes[..|notes| - 1], now);
      IngestStep(t, notes, now, r)
  }

  /** One turn of the loop, on the outcome `r` of the turns before it. */
  function IngestStep(t: Table, notes: seq<NotePayload>, now: Timestamp, r: IngestOutcome): (r': IngestOutcome)
    requires notes != [] && Valid(t)
    requires IngestPost(t, notes[..|notes| - 1], now, r)
    ensures IngestPost(t, notes, now, r')
  {
    var init, note := notes[..|notes| - 1], notes[|notes| - 1];
    assert init + [note] == notes;
    if r.missing.Some? then
      StoppedStep(t, init, note, now, r, r.missing.value);
      r
    else if MissingKey(note).Some? then
      StoppedStep(t, init, note, now, r, MissingKey(note).value);
      IngestOutcome(r.table, r.inserted, MissingKey(note))
    else
      var (t', created) := GetOrCreate(r.table, note["note_id"], note["chart_id"], note["note_type"], note["content"], now);
      CompleteStep(t, init, note, now, r, t', created);
      IngestOutcome(t', r.inserted + if created then 1 else 0, None)
  }

  /** Once a note lacks a key, later notes leave the outcome as it is. */
  lemma StoppedStep(t: Table, init: seq<NotePayload>, note: NotePayload, now: Timestamp,
                    r: IngestOutcome, k: string)
    requires IngestPost(t, init, now, r)
    requires r.missing == Some(k) || (r.missing.None? && MissingKey(note) == Some(k))
    ensures IngestPost(t, init + [note], now, IngestOutcome(r.table, r.inserted, Some(k)))
  {
    var notes := init + [note];
    FirstIncompleteSnoc(init, note);
    ProcessedSnocStopped(init, note);
    assert forall j :: 0 <= j < |init| ==> notes[j] == init[j];
  }

  /** A complete note is inserted when its id is new, and the outcome moves on past it. */
  lemma CompleteStep(t: Table, init: seq<NotePayload>, note: NotePayload, now: Timestamp,
                     r: IngestOutcome, t': Table, created: bool)
    requires IngestPost(t, init, now, r) && r.missing.None? && MissingKey(note).None?
    requires Valid(t')
    requires !created ==> t' == r.table
    requires created ==> t'.rows == r.table.rows + [RowFor(note, r.table.nextId, now)] && t'.nextId == r.table.nextId + 1
    requires NoteIds(t'.rows) == NoteIds(r.table.rows) + {note["note_id"]}
    ensures IngestPost(t, init + [note], now, IngestOutcome(t', r.inserted + if created then 1 else 0, None))
  {
    FirstIncompleteSnoc(init, note);
    ProcessedSnocComplete(init, note);
    NewRowsStored(t, Processed(init), note, now, r.table, t', created);
  }

  /**
   What the loop over `notes` guarantees: the table stays valid and only
   grows, the count is the number of rows added, the key reported is the one
   the first incomplete note lacks, the stored ids are the old ones plus those
   of the processed notes, and every new row is stored from a processed note
   at the moment of the request.
   */
  predicate IngestPost(t: Table, notes: seq<NotePayload>, now: Timestamp, r: IngestOutcome) {
    && Valid(r.table)
    && t.rows <= r.table.rows
    && r.inserted == |r.table.rows| - |t.rows|
    && r.table.nextId == t.nextId + r.inserted
    && r.missing == (if FirstIncomplete(notes) < |notes| then MissingKey(notes[FirstIncomplete(notes)]) else None)
    && NoteIds(r.table.rows) == NoteIds(t.rows) + IdsOf(Processed(notes))
    && forall i :: |t.rows| <= i < |r.table.rows| ==> StoredFromOneOf(r.table.rows[i], Processed(notes), now)
  }

  /** `row` is the row created for one of `notes` at the moment `now`. */
  predicate StoredFromOneOf(row: MedicalNote, notes: seq<NotePayload>, now: Timestamp) {
    exists j :: 0 <= j < |notes| && Stores(row, notes[j], now)
  }

  lemma {:induction false} FirstIncompleteSnoc(init: seq<NotePayload>, note: NotePayload)
    ensures FirstIncomplete(init + [note]) ==
      if FirstIncomplete(init) < |init| then FirstIncomplete(init)
      else if MissingKey(note).Some? then |init|
      else |init| + 1
  {
    var notes := init + [note];
    assert forall i :: 0 <= i < |init| ==> notes[i] == init[i];
    assert notes[|init|] == note;
  }

  lemma {:induction false} ProcessedSnocStopped(init: seq<NotePayload>, note: NotePayload)
    requires FirstIncomplete(init) < |init| || MissingKey(note).Some?
    ensures Processed(init + [note]) == Processed(init)
  {
    FirstIncompleteSnoc(init, note);
    var notes := init + [note];
    assert notes[..FirstIncomplete(init)] == init[..FirstIncomplete(init)];
  }

  lemma {:induction false} ProcessedSnocComplete(init: seq<NotePayload>, note: NotePayload)
    requires FirstIncomplete(init) == |init| && MissingKey(note).None?
    ensures Processed(init + [note]) == Processed(init) + [note]
    ensures IdsOf(Processed(init + [note])) == IdsOf(Processed(init)) + {note["note_id"]}
  {
    FirstIncompleteSnoc(init, note);
    var notes := init + [note];
    assert notes[..|notes|] == notes;
    assert init[..|init|] == init;
    IdsOfSnoc(init, note);
  }

  lemma {:induction false} IdsOfSnoc(notes: seq<NotePayload>, note: NotePayload)
    requires "note_id" in note
    ensures IdsOf(notes + [note]) == IdsOf(notes) + {note["note_id"]}
  {
    var all := notes + [note];
    forall x | x in IdsOf(all)
      ensures x in IdsOf(notes) + {note["note_id"]}
    {
      var i :| 0 <= i < |all| && "note_id" in all[i] && all[i]["note_id"] == x;
      if i < |notes| {
        assert all[i] == notes[i];
      }
    }
    forall x | x in IdsOf(notes)
      ensures x in IdsOf(all)
    {
      var i :| 0 <= i < |notes| && "note_id" in notes[i] && notes[i]["note_id"] == x;
      assert all[i] == notes[i];
    }
    assert all[|notes|] == note;
  }

  /** The row a complete note may add is stored from that note, so every new row still comes from a processed note. */
  lemma NewRowsStored(t: Table, ps: seq<NotePayload>, note: NotePayload, now: Timestamp,
                      before: Table, after: Table, created: bool)
    requires MissingKey(note).None?
    requires t.rows <= before.rows
    requires forall i :: |t.rows| <= i < |before.rows| ==> StoredFromOneOf(before.rows[i], ps, now)
    requires !created ==> after == before
    requires created ==> after.rows == before.rows + [MedicalNote(before.nextId, note["chart_id"], note["note_id"], note["note_type"], note["content"], now)]
    ensures forall i :: |t.rows| <= i < |after.rows| ==> StoredFromOneOf(after.rows[i], ps + [note], now)
  {
    forall i | |t.rows| <= i < |after.rows|
      ensures StoredFromOneOf(after.rows[i], ps + [note], now)
    {
      if i < |before.rows| {
        assert after.rows[i] == before.rows[i];
        StoredFromMore(before.rows[i], ps, note, now);
      } else {
        assert (ps + [note])[|ps|] == note;
      }
    }
  }

  lemma StoredFromMore(row: MedicalNote, ps: seq<NotePayload>, note: NotePayload, now: Timestamp)
    requires StoredFromOneOf(row, ps, now)
    ensures StoredFromOneOf(row, ps + [note], now)
  {
    var j :| 0 <= j < |ps| && Stores(row, ps[j], now);
    assert (ps + [note])[j] == ps[j];
  }

  /**
   `upload_chart`: an undecodable body changes nothing; a body without
   `notes` stores nothing; otherwise the notes are ingested and the answer
   is the missing key of the first incomplete note, or the number of rows
   created.
   */
  function UploadChart(t: Table, req: UploadRequest, now: Timestamp): (r: (Table, UploadResponse))
    requires Valid(t)
    ensures Valid(r.0)
    ensures r.1.InvalidPayload? <==> req.UnparsableUpload?
    ensures r.1.InvalidPayload? ==> r.0 == t
    ensures req.UploadBody? && req.notes.None? ==> r == (t, Uploaded(0))
    ensures r.1.MissingField? <==>
      (req.UploadBody? && req.notes.Some? &&
       exists i :: 0 <= i < |req.notes.value| && MissingKey(req.notes.value[i]).Some?)
    ensures r.1.MissingField? ==> r.1.field in {"note_id", "chart_id", "note_type", "content"}
    ensures r.1.MissingField? ==>
      var notes := req.notes.value;
      FirstIncomplete(notes) < |notes| && Some(r.1.field) == MissingKey(notes[FirstIncomplete(notes)])
    ensures req.UploadBody? ==> r.0 == Ingest(t, req.notes.GetOr([]), now).table
    ensures r.1.Uploaded? ==> r.1.notesInserted == |r.0.rows| - |t.rows|
    ensures t.rows <= r.0.rows
  {
    match req
    case UnparsableUpload => (t, InvalidPayload)
    case UploadBody(notes) =>
      var o := Ingest(t, notes.GetOr([]), now);
      if o.missing.Some? then (o.table, MissingField(o.missing.value))
      else (o.table, Uploaded(o.inserted))
  }

  /**
   The count reported is the number of distinct `note_id`s among the
   processed notes that were not stored before: duplicates, inside the batch
   or against the table, add nothing.
   */
  lemma InsertedCountsNewIds(t: Table, notes: seq<NotePayload>, now: Timestamp)
    requires Valid(t)
    ensures Ingest(t, notes, now).inserted == |IdsOf(Processed(notes)) - NoteIds(t.rows)|
  {
    var r := Ingest(t, notes, now);
    var old_ids, ids := NoteIds(t.rows), IdsOf(Processed(notes));
    UniqueIdsCount(t.rows);
    UniqueIdsCount(r.table.rows);
    assert NoteIds(r.table.rows) == old_ids + (ids - old_ids);
    assert old_ids !! (ids - old_ids);
  }

  /**
   Uploading a batch that went through completely a second time creates no
   row, changes nothing and reports zero inserts.
   */
  lemma ReuploadInsertsNothing(t: Table, notes: seq<NotePayload>, now: Timestamp, later: Timestamp)
    requires Valid(t)
    requires UploadChart(t, UploadBody(Some(notes)), now).1.Uploaded?
    ensures var t' := UploadChart(t, UploadBody(Some(notes)), now).0;
      UploadChart(t', UploadBody(Some(notes)), later) == (t', Uploaded(0))
  {
    var first := Ingest(t, notes, now);
    var t' := first.table;
    assert UploadChart(t, UploadBody(Some(notes)), now).0 == t';
    IngestOfStoredIdsIsNoOp(t', notes, later);
  }

  /** When every processed note's id is already stored, the loop creates nothing. */
  lemma IngestOfStoredIdsIsNoOp(t: Table, notes: seq<NotePayload>, now: Timestamp)
    requires Valid(t)
    requires IdsOf(Processed(notes)) <= NoteIds(t.rows)
    ensures Ingest(t, notes, now).table == t
    ensures Ingest(t, notes, now).inserted == 0
  {
    var r := Ingest(t, notes, now);
    InsertedCountsNewIds(t, notes, now);
    assert IdsOf(Processed(notes)) - NoteIds(t.rows) == {};
    assert r.table.rows == t.rows;
  }

  /** A batch holding the same new `note_id` twice creates one row, from the first of the two. */
  lemma DuplicateInBatchInsertsOnce(t: Table, a: NotePayload, b: NotePayload, now: Timestamp)
    requires Valid(t)
    requires MissingKey(a).None? && MissingKey(b).None? && a["note_id"] == b["note_id"]
    requires a["note_id"] !in NoteIds(t.rows)
    ensures var r := Ingest(t, [a, b], now);
      && r.missing.None?
      && r.inserted == 1
      && r.table.rows == t.rows + [MedicalNote(t.nextId, a["chart_id"], a["note_id"], a["note_type"], a["content"], now)]
  {
    var row := MedicalNote(t.nextId, a["chart_id"], a["note_id"], a["note_type"], a["content"], now);
    IngestOfOneNew(t, a, now);
    var r1 := Ingest(t, [a], now);
    assert [a, b][..1] == [a];
    assert Ingest(t, [a, b], now) == IngestStep(t, [a, b], now, r1);
    NoteIdsAppend(t.rows, row);
    StepOnStoredId(t, [a, b], now, r1);
  }

  /** A complete note whose id is already stored leaves the outcome as it is. */
  lemma StepOnStoredId(t: Table, notes: seq<NotePayload>, now: Timestamp, r: IngestOutcome)
    requires notes != [] && Valid(t)
    requires IngestPost(t, notes[..|notes| - 1], now, r) && r.missing.None?
    requires MissingKey(notes[|notes| - 1]).None?
    requires notes[|notes| - 1]["note_id"] in NoteIds(r.table.rows)
    ensures IngestStep(t, notes, now, r) == r
  {
  }

  /**
   A note that lacks a key does not undo the rows created before it: the
   answer is the error, yet the earlier note's row stays stored.
   */
  lemma MissingKeyKeepsEarlierRows(t: Table, a: NotePayload, b: NotePayload, now: Timestamp)
    requires Valid(t)
    requires MissingKey(a).None? && a["note_id"] !in NoteIds(t.rows)
    requires MissingKey(b).Some?
    ensures UploadChart(t, UploadBody(Some([a, b])), now) == (
      Table(t.rows + [MedicalNote(t.nextId, a["chart_id"], a["note_id"], a["note_type"], a["content"], now)], t.nextId + 1),
      MissingField(MissingKey(b).value))
  {
    IngestOfOneNew(t, a, now);
    var r1 := Ingest(t, [a], now);
    assert [a, b][..1] == [a];
    assert Ingest(t, [a, b], now) == IngestStep(t, [a, b], now, r1);
  }

  /** A single complete note with a new id adds exactly its row. */
  lemma IngestOfOneNew(t: Table, a: NotePayload, now: Timestamp)
    requires Valid(t)
    requires MissingKey(a).None? && a["note_id"] !in NoteIds(t.rows)
    ensures Ingest(t, [a], now) == IngestOutcome(
      Table(t.rows + [MedicalNote(t.nextId, a["chart_id"], a["note_id"], a["note_type"], a["content"], now)], t.nextId + 1),
      1, None)
  {
    assert [a][..0] == [];
    assert Ingest(t, [a], now) == IngestStep(t, [a], now, IngestOutcome(t, 0, None));
  }

  // ---------------------------------------------------------------------
  // The rows an upload adds, as a reference definition
  // ---------------------------------------------------------------------

  /**
   The processed notes that create a row, in batch order: each complete note
   whose `note_id` is neither in `ids` (the ids stored before) nor taken by
   an earlier note of the batch.
   */
  function NewNotes(ids: set<string>, ps: seq<NotePayload>): (ns: seq<NotePayload>)
    ensures |ns| <= |ps|
    ensures forall k :: 0 <= k < |ns| ==> MissingKey(ns[k]).None?
    decreases |ps|
  {
    if ps == [] then []
    else
      var init, note := ps[..|ps| - 1], ps[|ps| - 1];
      NewNotes(ids, init) + if IsNewNote(ids, init, note) then [note] else []
  }

  predicate IsNewNote(ids: set<string>, init: seq<NotePayload>, note: NotePayload) {
    MissingKey(note).None? && note["note_id"] !in ids + IdsOf(init)
  }

  /** The row stored for a complete `note` under the key `id`. */
  function RowFor(note: NotePayload, id: nat, now: Timestamp): (row: MedicalNote)
    requires MissingKey(note).None?
    ensures Stores(row, note, now) && row.id == id
  {
    MedicalNote(id, note["chart_id"], note["note_id"], note["note_type"], note["content"], now)
  }

  /** The rows of `ns`, in order, under consecutive keys starting at `next`. */
  function RowsOf(ns: seq<NotePayload>, next: nat, now: Timestamp): (rows: seq<MedicalNote>)
    requires forall k :: 0 <= k < |ns| ==> MissingKey(ns[k]).None?
    ensures |rows| == |ns|
    ensures forall k :: 0 <= k < |ns| ==> rows[k] == RowFor(ns[k], next + k, now)
    decreases |ns|
  {
    if ns == [] then []
    else
      var init := ns[..|ns| - 1];
      assert forall k :: 0 <= k < |init| ==> init[k] == ns[k];
      RowsOf(init, next, now) + [RowFor(ns[|ns| - 1], next + |init|, now)]
  }

  /**
   The rows the upload loop adds are exactly the rows of the new notes, in
   batch order, under consecutive keys from the table's next key: the first
   note with a new id wins, later duplicates add nothing, and nothing after
   the first incomplete note is stored.
   */
  lemma {:induction false} IngestRows(t: Table, notes: seq<NotePayload>, now: Timestamp)
    requires Valid(t)
    ensures Ingest(t, notes, now).table.rows
         == t.rows + RowsOf(NewNotes(NoteIds(t.rows), Processed(notes)), t.nextId, now)
    decreases |notes|
  {
    var ids := NoteIds(t.rows);
    if notes == [] {
      assert Processed(notes) == [];
    } else {
      var init, note := notes[..|notes| - 1], notes[|notes| - 1];
      assert init + [note] == notes;
      IngestRows(t, init, now);
      var r := Ingest(t, init, now);
      var ps := Processed(init);
      assert Ingest(t, notes, now) == IngestStep(t, notes, now, r);
      if r.missing.Some? || MissingKey(note).Some? {
        FirstIncompleteSnoc(init, note);
        ProcessedSnocStopped(init, note);
      } else {
        FirstIncompleteSnoc(init, note);
        ProcessedSnocComplete(init, note);
        var (t', _) := GetOrCreate(r.table, note["note_id"], note["chart_id"], note["note_type"], note["content"], now);
        RowsStepComplete(t, ps, note, now, r.table, t');
      }
    }
  }

  lemma NewNotesSnoc(ids: set<string>, ps: seq<NotePayload>, note: NotePayload)
    ensures NewNotes(ids, ps + [note]) == NewNotes(ids, ps) + if IsNewNote(ids, ps, note) then [note] else []
  {
    assert (ps + [note])[..|ps|] == ps;
  }

  /**
   A complete note, read with `get_or_create` on a table that holds the rows
   of the new notes so far, adds the next row of the reference exactly when
   its id is new.
   */
  lemma RowsStepComplete(t: Table, ps: seq<NotePayload>, note: NotePayload, now: Timestamp, before: Table, after: Table)
    requires Valid(before) && MissingKey(note).None?
    requires before.rows == t.rows + RowsOf(NewNotes(NoteIds(t.rows), ps), t.nextId, now)
    requires before.nextId == t.nextId + (|before.rows| - |t.rows|)
    requires NoteIds(before.rows) == NoteIds(t.rows) + IdsOf(ps)
    requires after == GetOrCreate(before, note["note_id"], note["chart_id"], note["note_type"], note["content"], now).0
    ensures after.rows == t.rows + RowsOf(NewNotes(NoteIds(t.rows), ps + [note]), t.nextId, now)
  {
    var ids := NoteIds(t.rows);
    var ns := NewNotes(ids, ps);
    NewNotesSnoc(ids, ps, note);
    if IsNewNote(ids, ps, note) {
      assert NewNotes(ids, ps + [note]) == ns + [note];
      RowsStepNew(t.rows, ns, note, t.nextId, now, before, after);
    } else {
      assert NewNotes(ids, ps + [note]) == ns;
      StoredRow(before, note, now);
    }
  }

  /** A new id: the row added is the reference's next row. */
  lemma RowsStepNew(base: seq<MedicalNote>, ns: seq<NotePayload>, note: NotePayload, next: nat, now: Timestamp,
                    before: Table, after: Table)
    requires forall k :: 0 <= k < |ns| ==> MissingKey(ns[k]).None?
    requires Valid(before) && MissingKey(note).None? && note["note_id"] !in NoteIds(before.rows)
    requires before.rows == base + RowsOf(ns, next, now) && before.nextId == next + |ns|
    requires after == GetOrCreate(before, note["note_id"], note["chart_id"], note["note_type"], note["content"], now).0
    ensures after.rows == base + RowsOf(ns + [note], next, now)
  {
    var rs, row := RowsOf(ns, next, now), RowFor(note, next + |ns|, now);
    CreatedRow(before, note, now);
    assert after.rows == (base + rs) + [row];
    RowsOfSnoc(ns, note, next, now);
    AppendAssoc(base, rs, [row]);
  }

  /** `get_or_create` with a new id appends the note's row under the next key. */
  lemma CreatedRow(before: Table, note: NotePayload, now: Timestamp)
    requires Valid(before) && MissingKey(note).None? && note["note_id"] !in NoteIds(before.rows)
    ensures GetOrCreate(before, note["note_id"], note["chart_id"], note["note_type"], note["content"], now).0.rows
         == before.rows + [RowFor(note, before.nextId, now)]
  {
  }

  /** `get_or_create` with a stored id changes nothing. */
  lemma StoredRow(before: Table, note: NotePayload, now: Timestamp)
    requires Valid(before) && MissingKey(note).None? && note["note_id"] in NoteIds(before.rows)
    ensures GetOrCreate(before, note["note_id"], note["chart_id"], note["note_type"], note["content"], now).0 == before
  {
  }

  lemma RowsOfSnoc(ns: seq<NotePayload>, note: NotePayload, next: nat, now: Timestamp)
    requires forall k :: 0 <= k < |ns| ==> MissingKey(ns[k]).None?
    requires MissingKey(note).None?
    ensures RowsOf(ns + [note], next, now) == RowsOf(ns, next, now) + [RowFor(note, next + |ns|, now)]
  {
    assert (ns + [note])[..|ns|] == ns;
  }

  lemma AppendAssoc<T>(a: seq<T>, b: seq<T>, c: seq<T>)
    ensures (a + b) + c == a + (b + c)
  {
  }

  // ---------------------------------------------------------------------
  // code_chart
  // ---------------------------------------------------------------------

  /** The raw score of a match, or one that does not convert with `float(...)`. */
  datatype Score = Distance(x: real) | NotNumeric

  /** The top hit of `similarity_search_with_score(query, k=1)`. */
  datatype Hit = Hit(doc: Document, score: Score)

  /** The vector search: the best hit in the store for a query, if the store yields any. */
  type Search = (Collection, string) -> Option<Hit>

  /**
   `1.0 / (1.0 + float(score))`, or `None` when the score does not convert
   or the division fails (a score of -1).
   */
  function NormalizedSimilarity(s: Score): (r: Option<real>)
    ensures r.Some? <==> s.Distance? && s.x != -1.0
    ensures r.Some? ==> r.value * (1.0 + s.x) == 1.0
    ensures s.Distance? && s.x >= 0.0 ==> r.Some? && 0.0 < r.value <= 1.0
    ensures s == Distance(0.0) ==> r == Some(1.0)
  {
    match s
    case NotNumeric => None
    case Distance(x) => if 1.0 + x == 0.0 then None else Some(1.0 / (1.0 + x))
  }

  /** The similarity loses nothing: the raw score can be read back from it. */
  lemma SimilarityGivesBackScore(x: real)
    requires x != -1.0
    ensures NormalizedSimilarity(Distance(x)).value != 0.0
    ensures 1.0 / NormalizedSimilarity(Distance(x)).value - 1.0 == x
  {
  }

  /** A closer match (smaller distance) never gets a smaller similarity. */
  lemma SimilarityIsAntitone(x: real, y: real)
    requires 0.0 <= x <= y
    ensures NormalizedSimilarity(Distance(y)).value <= NormalizedSimilarity(Distance(x)).value
  {
    ReciprocalAntitone(1.0 + x, 1.0 + y);
  }

  lemma ReciprocalAntitone(a: real, b: real)
    requires 0.0 < a <= b
    ensures 1.0 / b <= 1.0 / a
  {
    assert (1.0 / b) * a <= (1.0 / b) * b;
  }

  /** A negative score above -1 gives a similarity above 1. */
  lemma NegativeScoreExceedsOne(x: real)
    requires -1.0 < x < 0.0
    ensures NormalizedSimilarity(Distance(x)).value > 1.0
  {
    var s := 1.0 / (1.0 + x);
    assert s * (1.0 + x) == 1.0;
  }

  /** One entry of `results`. A note without a hit has no similarity key at all. */
  datatype CodeResult =
    | Unmatched(noteId: string, noteType: string)
    | Matched(noteId: string, noteType: string, icdCode: string, shortDescription: string,
              longDescription: string, score: Score, normalizedSimilarity: Option<real>)

  /**
   The result for one note: the note's id and type, and either nothing or
   the code, descriptions and score of its top hit, searched with the
   note's content.
   */
  function CodeNote(store: Collection, search: Search, note: MedicalNote): (r: CodeResult)
    ensures r.noteId == note.noteId && r.noteType == note.noteType
    ensures r.Unmatched? <==> search(store, note.content).None?
    ensures r.Matched? ==>
      var hit := search(store, note.content).value;
      && r.icdCode == hit.doc.metadata.icdCode
      && r.shortDescription == hit.doc.metadata.shortDescription
      && r.longDescription == hit.doc.pageContent
      && r.score == hit.score
      && r.normalizedSimilarity == NormalizedSimilarity(hit.score)
  {
    match search(store, note.content)
    case None => Unmatched(note.noteId, note.noteType)
    case Some(Hit(doc, score)) =>
      Matched(note.noteId, note.noteType, doc.metadata.icdCode, doc.metadata.shortDescription,
              doc.pageContent, score, NormalizedSimilarity(score))
  }

  /** The loop over the chart's notes: one result per note, in the notes' order. */
  function CodeNotes(store: Collection, search: Search, notes: seq<MedicalNote>): (rs: seq<CodeResult>)
    ensures |rs| == |notes|
    ensures forall i :: 0 <= i < |notes| ==> rs[i] == CodeNote(store, search, notes[i])
    decreases |notes|
  {
    if notes == [] then []
    else
      var init := notes[..|notes| - 1];
      assert forall i :: 0 <= i < |init| ==> notes[i] == init[i];
      CodeNotes(store, search, init) + [CodeNote(store, search, notes[|notes| - 1])]
  }

  datatype CodeRequest =
      /** A body that `json.loads` rejects with `JSONDecodeError`. */
    | UnparsableCode
      /** A JSON object; `chartId` is `None` when the key is absent. */
    | CodeBody(chartId: Option<string>)

  datatype CodeResponse =
      /** 400, "Invalid JSON payload". */
    | InvalidCodePayload
      /** 400, "Missing required field: chart_id". */
    | MissingChartId
      /** 404, "No notes found for chart_id=...". */
    | ChartNotFound(chartId: string)
      /** 200, the chart id and one result per note. */
    | Coded(chartId: string, results: seq<CodeResult>)

  /**
   `code_chart`: rejects an undecodable body and a missing or empty
   `chart_id`, answers not-found for a chart without stored notes, and
   otherwise opens the vector store (building it on the first use in the
   process) and codes each of the chart's notes in `id` order.
   */
  function CodeChart(t: Table, p: Process, countRaises: bool, csv: seq<CsvRow>,
                     search: Search, req: CodeRequest): (r: (Process, CodeResponse))
    requires Valid(t)
    ensures r.1.InvalidCodePayload? <==> req.UnparsableCode?
    ensures r.1.MissingChartId? <==> req.CodeBody? && (req.chartId.None? || req.chartId.value == [])
    ensures r.1.ChartNotFound? <==>
      (req.CodeBody? && req.chartId.Some? && req.chartId.value != [] &&
       forall n :: n in t.rows ==> n.chartId != req.chartId.value)
    ensures r.1.ChartNotFound? ==> r.1.chartId == req.chartId.value
    ensures !r.1.Coded? ==> r.0 == p
    ensures r.1.Coded? ==>
      var notes := FilterByChart(t.rows, r.1.chartId);
      && req == CodeBody(Some(r.1.chartId))
      && r.1.results != []
      && |r.1.results| == |notes|
      && r.0 == GetVectorStore(p, countRaises, csv).0
      && forall i :: 0 <= i < |notes| ==>
           r.1.results[i] == CodeNote(GetVectorStore(p, countRaises, csv).1, search, notes[i])
  {
    match req
    case UnparsableCode => (p, InvalidCodePayload)
    case CodeBody(chartId) =>
      if chartId.None? || chartId.value == [] then (p, MissingChartId)
      else
        var id := chartId.value;
        var notes := FilterByChart(t.rows, id);
        FilterByChartEmpty(t.rows, id);
        if notes == [] then (p, ChartNotFound(id))
        else
          var (p', store) := GetVectorStore(p, countRaises, csv);
          (p', Coded(id, CodeNotes(store, search, notes)))
  }

  /**
   The results of a coded chart cover exactly the chart's stored notes:
   every stored note of the chart has its entry, every entry belongs to a
   stored note of the chart, and the entries follow ascending row ids.
   */
  lemma CodedCoversChart(t: Table, p: Process, countRaises: bool, csv: seq<CsvRow>,
                         search: Search, req: CodeRequest)
    requires Valid(t)
    requires CodeChart(t, p, countRaises, csv, search, req).1.Coded?
    ensures var resp := CodeChart(t, p, countRaises, csv, search, req).1;
      var notes := FilterByChart(t.rows, resp.chartId);
      && IdsAscending(notes)
      && (forall n :: n in t.rows && n.chartId == resp.chartId ==>
            exists i :: 0 <= i < |notes| && notes[i] == n && resp.results[i].noteId == n.noteId)
      && (forall i :: 0 <= i < |resp.results| ==>
            notes[i] in t.rows && notes[i].chartId == resp.chartId && resp.results[i].noteId == notes[i].noteId)
  {
    var resp := CodeChart(t, p, countRaises, csv, search, req).1;
    var notes := FilterByChart(t.rows, resp.chartId);
    forall n | n in t.rows && n.chartId == resp.chartId
      ensures exists i :: 0 <= i < |notes| && notes[i] == n && resp.results[i].noteId == n.noteId
    {
      assert n in notes;
      var i :| 0 <= i < |notes| && notes[i] == n;
      assert resp.results[i].noteId == n.noteId;
    }
  }
}

=== FILE: wrappers.dfy ===
/** Optional values: Python's `None` versus a present value. */
module Wrappers {

  datatype Option<+T> = None | Some(value: T) {

    /** The value, or `default` when absent (Python's `x or default` on optional strings). */
    function GetOr(default: T): T {
      match this
      case Some(v) => v
      case None => default
    }
  }
}
